=== FILE: README.md ===
# Customer recognition: the decision logic, in Dafny

This project models the sequential decision logic of the customer recognition
system and proves properties of it. The system has four parts:

- **The billing predictor** (`BillingModel` in `train_model.py`), module `Billing`.
  - It builds training pairs from consecutive purchases.
  - It chooses between a simple average model and a regression model.
  - It predicts a customer's next bill with a random jitter.
  - It records new purchases, recounting visits and re-averaging.
- **The web server's detection state** (`app.py`), module `Server`.
  - `Server` holds the cooldown map and processes detections against the customer store.
  - The `latest_detections` cache and its newest-first, top-ten views live in `LatestCache`.
  - Customer documents live in `Customers`.
- **The camera loop** (`simple_face_recognition.py`), module `Recognition`.
  - It loads the known faces and picks the nearest match under the 0.6 threshold.
  - It applies the ten-second per-customer cooldown and the API-failure breaker.
  - It registers new customers and updates existing ones in the store.
- **The employee authentication rules** (`auth/utils.py`, `auth/models.py`).
  - Module `AuthUtils` covers password hashing, the password and employee-id validators, token lookup and the admin check.
  - Module `Employees` covers account creation, login and Google account linking.

Shared helpers:
- `Dicts` models Python's insertion-ordered dictionaries.
- `Strings` models `startswith`/`endswith`, `str(n)`, zero padding and `int(s)`.
- `Wrappers` provides `Option`.

Everything is an immutable datatype with pure functions. Each state change is a function from the old state to the new one.

The following are function parameters, because the model cannot see them:
- clocks;
- `random` draws;
- the directory listing;
- `float()` on text and the `:.2f` formatting;
- the fitted linear regression;
- SHA-256;
- JWT decoding;
- the face-distance function;
- the results of the API call and of the store insert.

Time is modelled in two units:
- Server instants are integer microseconds. `isoformat()` strings order like the instants, so they are modelled as the instants.
- Camera time is real seconds.

Two points of the code are worth stating up front:
- **Detection suppression.** app.py declares `customer_cooldowns` and `DETECTION_COOLDOWN` (app.py:38-39). Despite that, `customer_detected` only writes the map (app.py:261) and never reads it before processing (app.py:264). Repeated detections are suppressed only by the camera loop's own ten-second cooldown (simple_face_recognition.py:206).
- **Visit counts.** Three counters are kept, and they do not agree:
  - the camera's `update_customer` increments the stored `visit_count` (simple_face_recognition.py:103);
  - `process_customer_detection` increments the same field again (app.py:297);
  - the billing data sets its own `visit_count` to the number of purchases (train_model.py:241).

  Each rule is modelled separately, and no invariant across components is claimed.

## Model

| member | source | states |
|---|---|---|
| `Dicts.Put` | app.py:332 | assignment sets the key's value; an existing key keeps its position, a new key goes last |
| `Dicts.Remove` | app.py:363-364 | the key is gone, every other entry stays, the key is cut out of the order at its one position so the remaining keys keep their order, and removing an absent key changes nothing |
| `Dicts.ValuesContents` | app.py:204 | a value is listed by `values()` exactly when some key maps to it |
| `Strings.ParseInt` | auth/utils.py:149 | `int()` accepts exactly an optional sign followed by one or more ASCII digits |
| `Strings.ParseNatToString` | auth/utils.py:149 | `int(str(n)) == n` for every natural number |
| `Strings.NatToString` | simple_face_recognition.py:67 | `str(n)` is a non-empty digit string without a leading zero |
| `Strings.ZeroPad` | auth/models.py:135 | zero-padding to a width ends with the original text, has the width (or the text's own length if longer) and is zeros in front |
| `Strings.PadNatDigits` | auth/models.py:135 | a number below 10^w padded to width w is exactly w digits |
| `Billing.ConsecutivePairs` | train_model.py:124-129 | a customer with n ≥ 2 purchases gives n-1 pairs, pair i being (amount i, amount i+1); fewer purchases give none |
| `Billing.ConsecutivePairsContents` | train_model.py:124-129 | a pair is produced exactly when it is two consecutive amounts of the history |
| `Billing.TrainingPairs` | train_model.py:116-129 | the number of samples is the sum over customers of len-1, customers below two purchases counting nothing |
| `Billing.TrainingPairsContents` | train_model.py:116-129 | a pair is a training sample exactly when it is two consecutive amounts of some customer |
| `Billing.NoPairsBelowTwoPurchases` | train_model.py:119-121 | when no customer has two purchases there are no samples and the preparation returns None |
| `Billing.PrepareTrainingData` | train_model.py:131-134 | None exactly when there are no pairs; otherwise the non-empty list of pairs |
| `Billing.Train` | train_model.py:140-162 | simple model exactly when fewer than 2 pairs, with the mean of all amounts (100.0 with none); otherwise the regression on exactly those pairs |
| `Billing.Retrain` | train_model.py:164 | the trained model replaces the one in memory and in the saved artifact, data unchanged |
| `Billing.Uniform` | train_model.py:178 | `random.uniform(a, b)` lies in [a, b] |
| `Billing.Predict` | train_model.py:166-211 | 100.0 with no model; for a customer without purchases avg*(1+u), u in [-0.1, 0.1], under the simple model and 100.0 otherwise; with purchases (0.7*last + 0.3*avg)*(1+u), u in [-0.05, 0.05], under the simple model, the regression's value at the last amount, or last*(1+u), u in [-0.1, 0.1], for an unrecognised model |
| `Billing.MeanBounds` | train_model.py:155 | the average lies between any lower and upper bound of the amounts |
| `Billing.SimplePredictionNonNegative` | train_model.py:195-202 | with non-negative amounts and a simple model trained on them, every prediction is non-negative |
| `Billing.UpdateWithNewPurchase` | train_model.py:219-253 | always succeeds: a missing customer is created with today's date; exactly one purchase is appended; visit count = number of purchases; avg_bill = their mean; other customers unchanged; the model is retrained |
| `Billing.PredictAfterUpdate` | train_model.py:195-206 | after recording an amount, the customer's next prediction weighs that amount (simple model) or evaluates the regression at it, and the retrained model is never unrecognised |
| `Billing.FirstPurchase` | train_model.py:219-245 | the first purchase of an empty ledger gives one visit, avg_bill = amount, the simple model at that amount, and a prediction within 5% of it |
| `Billing.OnlyCustomer` | train_model.py:148-155 | a ledger of one customer with one purchase trains the simple model on that amount |
| `Customers.FindIndex` | app.py:280 | `find_one` finds the first document with the id, and none exactly when no document has it |
| `Customers.FindOne` | app.py:280 | a document is found exactly when one has the id, and it is the first document with that id in natural order |
| `Customers.IncrementVisits` | app.py:297 | `$inc` on a missing count gives 1, otherwise count+1 |
| `Customers.Touch` | simple_face_recognition.py:99-112 | a visit sets last_seen, increments the count, appends the image if given, and keeps id, embedding and registration date |
| `Customers.RecordVisit` | app.py:292-298 | `update_one` touches only the first matching document and changes nothing when none matches |
| `LatestCache.InsertDesc` | app.py:205 | insertion into a newest-first list keeps it newest-first and adds exactly the one element |
| `LatestCache.SortDesc` | app.py:205 | `sort(key=timestamp, reverse=True)` yields a newest-first permutation of its input |
| `LatestCache.SortDescStable` | app.py:205 | the sort is stable: events with equal timestamps keep their dictionary order |
| `LatestCache.Recent` | app.py:204-206 | the recent view has min(10, cache size) events, newest first, all taken from the cache |
| `LatestCache.RecentDominates` | app.py:520-522 | an event left out of the recent view is no newer than any event in it |
| `LatestCache.GetLatest` | app.py:492-504 | `no_customers` exactly on an empty cache; otherwise an event of the cache with the greatest timestamp |
| `LatestCache.LatestIsHeadOfRecent` | app.py:206-209 | the latest customer is the head of the recent list, and none exactly when that list is empty |
| `LatestCache.Publish` | app.py:332 | publishing overwrites the customer's entry and leaves the other entries untouched; a customer already cached keeps its place in the key order, a new one goes last |
| `Server.CleanupCooldowns` | app.py:87-96 | removes exactly the entries older than 120 s and keeps the others with their instants |
| `Server.CleanupIdempotent` | app.py:87-96 | a second cleanup at the same instant changes nothing |
| `Server.CleanupBoundary` | app.py:92 | an entry exactly 120 s old stays; one a microsecond older goes |
| `Server.FindImage` | app.py:302-307 | the first listing entry starting with the id and ending .jpg/.jpeg/.png, or None when there is none |
| `Server.CapturedImageChosen` | app.py:304-306 | the camera's captured file for the customer becomes the image URL whenever no earlier listing entry is an image of that customer |
| `Server.ProcessDetection` | app.py:273-332 | an unseen id is inserted with visit count 1 and both dates now; a seen id gets a visit and reports stored count (missing = 0) + 1; the bill is 0.0 without a model, else the prediction; the cache is the old one with the entry published (key order kept for a cached id, appended for a new one), cooldowns untouched |
| `Server.ReportedVisitsMatchStore` | app.py:283-299 | after processing, the store holds the id with the visit count the detection reports and last_seen = now |
| `Server.CustomerDetected` | app.py:247-271 | no JSON is a 500; a missing or empty id is a 400 with nothing changed; otherwise cooldown[id] := now unconditionally and the detection is processed |
| `Server.NoSuppressionOnServer` | app.py:259-264 | a repeated detection of the same id, however soon, is accepted and processed again |
| `Server.UpdateBill` | app.py:340-375 | 400 for no data, then 400 for a non-numeric amount (500 for null), then 400 for a missing id, 500 with no model; success exactly otherwise, recording the purchase, removing the id from the cache with the other keys in their order, and replying removed=true; any failure changes nothing |
| `Server.TestDetection` | app.py:536-556 | publishes a fixed event for the given id (default C1001) with bill 50.0 and visit count 1, as an ordinary publish of the cache, touching nothing else |
| `Server.TestDetectionShownLatest` | app.py:536-556 | when no cached event is newer, the dashboard's latest customer after a test detection carries the test event's instant |
| `Recognition.KnownFaces` | simple_face_recognition.py:23-39 | the encoding and id lists have equal length |
| `Recognition.KnownFacesAppend` | simple_face_recognition.py:30-34 | the lists follow store order: loading a concatenation concatenates the lists |
| `Recognition.KnownFacesContents` | simple_face_recognition.py:30-34 | an id is known exactly when some customer has it with a non-empty embedding, and each encoding is that customer's |
| `Recognition.KnownFacesTouched` | simple_face_recognition.py:99-112 | a store write keeping ids and embeddings keeps the known lists |
| `Recognition.ArgMin` | simple_face_recognition.py:188 | `np.argmin` gives a position of the least distance, and no earlier position has it |
| `Recognition.BestMatch` | simple_face_recognition.py:182-189 | no best index exactly when there are no known encodings |
| `Recognition.Match` | simple_face_recognition.py:202 | a match is a valid index strictly below the threshold |
| `Recognition.MatchIffSomeClose` | simple_face_recognition.py:182-202 | a match exists exactly when some distance is below 0.6, and it is the first of the nearest |
| `Recognition.ThresholdIsStrict` | simple_face_recognition.py:21 | a distance of exactly 0.6 is not a match |
| `Recognition.Tick` | simple_face_recognition.py:197-199 | after the periodic check the last reset is at most 30 s back; the count never grows and the reset instant never moves back; more than 30 s after the last reset the breaker becomes count 0 reset at now, otherwise it is left exactly as it was, so a pause at 5 failures lasts until that reset |
| `Recognition.Attempt` | simple_face_recognition.py:214-221 | no call at 5 failures; a failed call adds one, a successful one resets to 0; the count never exceeds 5 |
| `Recognition.FiveFailuresPause` | simple_face_recognition.py:214-219 | five failures in a row pause further calls |
| `Recognition.Stamp` | simple_face_recognition.py:68 | `%Y%m%d%H%M%S` of a valid date is 14 digits |
| `Recognition.Trunc` | simple_face_recognition.py:67 | `int()` on a float truncates toward zero |
| `Recognition.NewCustomerId` | simple_face_recognition.py:67 | a new id is "C" followed by at least one character |
| `Recognition.NewCustomerIdSeconds` | simple_face_recognition.py:67 | the digits after "C" read back as the whole seconds of the clock |
| `Recognition.ImageFileName` | simple_face_recognition.py:96 | the captured file name starts with the customer id and ends in .jpg; for a valid date it is the id, `_`, 14 digits of the stamp and `.jpg` |
| `Recognition.Send` | simple_face_recognition.py:213-221 | at most one API call, for that customer, made exactly when the breaker is open; the breaker afterwards is `Attempt`'s (unchanged when skipped, +1 on failure, 0 on success), so the failure count stays within 5 |
| `Recognition.ImagePath` | simple_face_recognition.py:96 | the image path is auto_captured/ followed by that file name |
| `Recognition.Start` | simple_face_recognition.py:135-145 | the loop starts with the known faces of the store, no recorded detections and no failures counted since the start instant |
| `Recognition.Step` | simple_face_recognition.py:182-250 | one face keeps the lists parallel and the failure count at most 5 |
| `Recognition.StepAll` | simple_face_recognition.py:171 | a frame's faces, handled in turn, keep the same invariant |
| `Recognition.RecognisedIff` | simple_face_recognition.py:182-203 | a face is recognised exactly when some known encoding is closer than 0.6, as the customer at the first nearest position |
| `Recognition.CooldownGate` | simple_face_recognition.py:205-221 | a recognised customer is admitted exactly when unseen or last seen more than 10 s ago; admission records now, updates the store and calls the API when open; suppression changes nothing but the breaker reset |
| `Recognition.RegistrationEffect` | simple_face_recognition.py:227-250 | an unknown face is registered exactly when the insert succeeds, appending encoding and new id, recording now, storing the new document and calling the API when open, with the breaker after that call as `Attempt` gives it (+1 on failure, 0 on success, unchanged when paused); a failed insert changes nothing but the breaker reset |
| `Recognition.BreakerResets` | simple_face_recognition.py:196-199 | after more than 30 s the count is cleared before the decision, so afterwards it is 1 exactly when the one call made failed |
| `Recognition.Debounce` | simple_face_recognition.py:206 | the same face seen again within 10 s of an admission is suppressed and makes no call |
| `Recognition.StepKeepsSync` | simple_face_recognition.py:246-247 | the camera's lists stay equal to the store's customers with embeddings |
| `AuthUtils.Hex` | auth/utils.py:13 | `hexdigest()` is two lower-case hex digits per byte |
| `AuthUtils.UnhexHex` | auth/utils.py:13 | the hex text reads back to the digest |
| `AuthUtils.HexInjective` | auth/utils.py:13-18 | two digests have the same hex text exactly when they are equal |
| `AuthUtils.GeneratePasswordHash` | auth/utils.py:10-13 | the stored hash is 64 lower-case hex digits |
| `AuthUtils.HashRoundTrip` | auth/utils.py:10-18 | a password's own hash accepts it, and a hash accepts a password exactly when their SHA-256 digests agree |
| `AuthUtils.Search` | auth/utils.py:125-138 | `re.search` of a class finds a character of it exactly when the text contains one |
| `AuthUtils.ValidatePasswordIff` | auth/utils.py:121-140 | valid exactly when at least 8 characters with an A-Z, an a-z, a digit and one of `!@#$%^&*(),.?":{}\|<>` |
| `AuthUtils.UnderscoreIsNotSpecial` | auth/utils.py:137-138 | underscore and hyphen do not satisfy the special-character rule |
| `AuthUtils.IsValidEmployeeId` | auth/utils.py:145-146 | a valid id starts with "emp" |
| `AuthUtils.EmployeeIdRange` | auth/utils.py:148-150 | "emp" + str(n) is valid exactly when 1001 <= n <= 1050 |
| `AuthUtils.UnparsableSuffixRejected` | auth/utils.py:151-152 | an unparsable suffix is invalid |
| `AuthUtils.NoValidIdStartsWithEmp50` | auth/utils.py:148-150 | no valid employee id starts with "emp50" |
| `AuthUtils.Split` | auth/utils.py:50 | `split(" ")` gives pieces without spaces that join back to the text |
| `AuthUtils.SecondWord` | auth/utils.py:50-52 | `split(" ")[1]` fails exactly when the header has no space |
| `AuthUtils.SecondWordAfterFirstSpace` | auth/utils.py:50 | the token is the text between the first space and the next one |
| `AuthUtils.ExtractToken` | auth/utils.py:47-63 | a header without a space is a 401; a non-empty second word is the token; a token is never empty |
| `AuthUtils.TokenPrecedence` | auth/utils.py:55-63 | the cookie is used only when the header is absent or gives an empty token; no token at all is a 401 "Token is missing" |
| `AuthUtils.TokenRequired` | auth/utils.py:65-73 | access exactly when a token decodes to a payload with a subject, as that user; every denial is a 401, with the decoder's message for decode errors |
| `AuthUtils.AdminRequired` | auth/utils.py:97-109 | access exactly with role "admin" and a subject; 403 exactly for another role; otherwise 401 |
| `AuthUtils.AdminImpliesToken` | auth/utils.py:76-110 | whoever passes the admin check passes the token check as the same user |
| `Employees.FirstIndex` | auth/models.py:23 | `find_one` gives the first matching document, none exactly when nothing matches |
| `Employees.CreateEmployee` | auth/models.py:14-46 | checks id, then password, then existing id, then existing email, each with its message; any failure leaves the store unchanged; success appends exactly one record with the hash, role and no last login; the role defaults to "employee" |
| `Employees.RoleDefaultsToEmployee` | auth/models.py:12 | an account created without a role gets the role "employee" |
| `Employees.SeededAdminRejected` | app.py:668-674 | the seeded "admin1001" account is refused as an invalid id and the store is unchanged |
| `Employees.Authenticate` | auth/models.py:49-75 | None for an unknown id or a missing or mismatched hash; success returns only id, name, email and role of the first match and sets its last_login |
| `Employees.CreatedEmployeeLogsIn` | auth/models.py:60 | a newly created account logs in with its password and gets its own profile |
| `Employees.NoHashNoLogin` | auth/models.py:139 | an account without a password hash never logs in by password |
| `Employees.Emp50Count` | auth/models.py:134 | the count of ids matching `^emp50` is at most the store size |
| `Employees.GoogleId` | auth/models.py:135 | the Google id starts with "emp50" |
| `Employees.GoogleSuffixValue` | auth/models.py:135 | the zero-padded suffix reads back as the number |
| `Employees.GoogleIdInjective` | auth/models.py:135 | different counts give different Google ids |
| `Employees.CreateGoogleUser` | auth/models.py:119-155 | an existing email links that first record (google_id, last_login) and returns it as it was; otherwise one record emp50NN (count+1, two digits) is appended with role employee and no hash |
| `Employees.NextGoogleIdFresh` | auth/models.py:134-135 | when the emp50 ids are the ones issued so far, the next one is not taken |
| `Employees.CreateEmployeeKeepsIssued` | auth/models.py:14-44 | creating an employee keeps the emp50 ids issued in sequence |
| `Employees.CreateGoogleUserKeepsIssued` | auth/models.py:134-148 | creating a Google account keeps them issued in sequence and gives it an id no account has |
| `Employees.AuthenticateKeepsIssued` | auth/models.py:62-65 | logging in keeps them issued in sequence |
| `Employees.LinkingAddsNothing` | auth/models.py:121-130 | linking an existing email adds no record |

## Left out

- Flask plumbing:
  - routing, templates, cookies and sessions;
  - the CORS preflight reply of `customer_detected`;
  - compression and security headers.
- Startup work: TLS certificates, gunicorn, database indexes and seeding. The seeded administrator's fate is stated by `Employees.SeededAdminRejected` only.
- Threads and timers. The background processing of a detection runs as one synchronous step. `get_model()`'s lazy singleton is the optional engine of the server state, `None` when loading failed.
- File I/O:
  - pickle and JSON persistence and the seed data of `load_customer_data`;
  - image copying and writing;
  - the reload of the customer data at the start of `update_with_new_purchase`. Only the in-memory update is modelled.
- The face library and OpenCV. The distance function, the encodings, and the clocks and outcomes of each face are parameters. The `face_distance` error path that skips a face is not modelled.
- The linear regression fit, SHA-256 and JWT decoding. Each is an opaque function parameter.
- IEEE floating point. Amounts, distances and camera time are exact reals, and NaN is not modelled.
- Python's lenient `int()`: surrounding whitespace, underscores and Unicode digits. Only ASCII sign-and-digit literals are parsed.
- Unicode digits matched by `\d` in `validate_password`. Only ASCII digits count.
- `float()` on text is a parameter. Numbers and booleans are modelled only for `actual_bill`. `customer_id` is modelled only as missing, null or a string. A JSON body that is not an object, and JSON arrays or objects as field values, are not modelled.
- `Server.CustomerDetected`: does not model a truthy non-string `customer_id` such as `5` or `true`. That id passes the check at app.py:256 and gets its cooldown and store writes (app.py:261, 285-298). Then `filename.startswith(5)` raises TypeError at app.py:306 whenever the listing is non-empty. The catch-all at app.py:334-337 swallows it, so the cache is never published. This partial-effect path is not modelled.
- `Recognition.KnownFaces`: assumes every customer document has a `customer_id`, as every writer in the system sets it. A document with a non-empty `face_embedding` and no `customer_id` has its encoding appended before `customer["customer_id"]` raises KeyError. The handler at simple_face_recognition.py:35 swallows the error and the two lists fall out of step. This case is not modelled.
- `Server.TestDetection`: requires the `customer_id` field not to be JSON null. The source would key the cache by `None`, and cache keys are strings here.
- `Server.UpdateBill`: the success message's `:.2f` amount formatting is the parameter `money`.
- `Recognition.Stamp`: pads the year to four digits. The platform's `%Y` for years before 1000 is not modelled, and the digit-count promise holds for valid dates only.
- `Recognition.Step`: one `datetime.now()` instant stands for the several consecutive calls inside `update_customer` and `register_new_customer`.
- Environment overrides in config.py. Only the defaults are used: EMPLOYEE_ID_MIN 1001 and EMPLOYEE_ID_MAX 1050 (config.py:29-30).
- `get_by_id`, `get_by_email`, `generate_token`, `customer_details`, `history`, `manual_lookup`'s own lookups, and `identify_customer`. These are outside the modelled core. `manual_lookup`'s recent list is the same `LatestCache.Recent`.

=== FILE: auth_utils.dfy ===
/** The authentication helpers of auth/utils.py: password hashing and checking,
    the password-strength and employee-id validators, and the token lookup and
    role check the two route decorators perform.

    SHA-256 is the parameter `sha` (text to 32 bytes); its hex rendering is
    modelled here. JWT decoding is the parameter `decode`, which either reports
    an error message or yields the claims it found. */
module AuthUtils {

  import opened Wrappers
  import opened Strings

  // ---------------------------------------------------------------------------
  // Password hashes

  type Byte = x: int | 0 <= x < 256

  /** A SHA-256 digest. */
  type Digest = d: seq<Byte> | |d| == 32 witness seq(32, _ => 0)

  /** A lower-case hexadecimal digit, as `hexdigest()` writes them. */
  predicate IsHexChar(c: char) {
    '0' <= c <= '9' || 'a' <= c <= 'f'
  }

  function HexChar(n: int): (c: char)
    requires 0 <= n < 16
    ensures IsHexChar(c)
  {
    if n < 10 then ('0' as int + n) as char else ('a' as int + n - 10) as char
  }

  function HexValue(c: char): (n: int)
    requires IsHexChar(c)
    ensures 0 <= n < 16 && HexChar(n) == c
  {
    if '0' <= c <= '9' then c as int - '0' as int else c as int - 'a' as int + 10
  }

  lemma HexValueOfChar(n: int)
    requires 0 <= n < 16
    ensures HexValue(HexChar(n)) == n
  {
  }

  lemma Nibbles(x: Byte)
    ensures 0 <= x / 16 < 16 && 0 <= x % 16 < 16
    ensures (x / 16) * 16 + x % 16 == x
  {
  }

  /** `hexdigest()`: two lower-case hex digits per byte, high nibble first. */
  function Hex(b: seq<Byte>): (s: string)
    ensures |s| == 2 * |b|
    ensures forall i :: 0 <= i < |s| ==> IsHexChar(s[i])
  {
    if |b| == 0 then ""
    else [HexChar(b[0] / 16), HexChar(b[0] % 16)] + Hex(b[1..])
  }

  /** Reads hex text back into bytes. */
  function Unhex(s: string): (b: seq<Byte>)
    requires |s| % 2 == 0
    requires forall i :: 0 <= i < |s| ==> IsHexChar(s[i])
    ensures |b| == |s| / 2
  {
    if |s| == 0 then []
    else [HexValue(s[0]) * 16 + HexValue(s[1])] + Unhex(s[2..])
  }

  /** Reading the hex text back yields the bytes. */
  lemma {:induction false} UnhexHex(b: seq<Byte>)
    ensures Unhex(Hex(b)) == b
  {
    if |b| > 0 {
      var s := Hex(b);
      assert s[2..] == Hex(b[1..]);
      UnhexHex(b[1..]);
      Nibbles(b[0]);
      HexValueOfChar(b[0] / 16);
      HexValueOfChar(b[0] % 16);
    }
  }

  /** Distinct digests have distinct hex texts. */
  lemma HexInjective(a: seq<Byte>, b: seq<Byte>)
    ensures Hex(a) == Hex(b) <==> a == b
  {
    if Hex(a) == Hex(b) {
      UnhexHex(a);
      UnhexHex(b);
    }
  }

  /** `generate_password_hash`: the hex SHA-256 of the password; always 64 hex digits. */
  function GeneratePasswordHash(password: string, sha: string -> Digest): (h: string)
    ensures |h| == 64 && forall i :: 0 <= i < |h| ==> IsHexChar(h[i])
  {
    Hex(sha(password))
  }

  /** `check_password_hash(hashed, password)`. */
  predicate CheckPasswordHash(hashed: string, password: string, sha: string -> Digest) {
    hashed == Hex(sha(password))
  }

  /** A stored hash accepts a password exactly when both have the same SHA-256 digest; in
      particular every password is accepted by its own hash. */
  lemma HashRoundTrip(stored: string, password: string, sha: string -> Digest)
    ensures CheckPasswordHash(GeneratePasswordHash(password, sha), password, sha)
    ensures CheckPasswordHash(GeneratePasswordHash(stored, sha), password, sha) <==> sha(stored) == sha(password)
  {
    HexInjective(sha(stored), sha(password));
  }

  // ---------------------------------------------------------------------------
  // Password strength

  const MinPasswordLength: nat := 8
  /** The class `[!@#$%^&*(),.?":{}|<>]`. */
  const SpecialCharacters: string := "!@#$%^&*(),.?\":{}|<>"

  predicate IsUpper(c: char) { 'A' <= c <= 'Z' }
  predicate IsLower(c: char) { 'a' <= c <= 'z' }
  predicate IsSpecial(c: char) { c in SpecialCharacters }

  /** `re.search(class, s)`: some character of `s` is in the class. */
  predicate Contains(s: string, p: char -> bool) {
    exists i :: 0 <= i < |s| && p(s[i])
  }

  /** The first character of `s` satisfying `p`, searched from the left. */
  function Search(s: string, p: char -> bool): (r: Option<nat>)
    ensures r.None? <==> !Contains(s, p)
    ensures r.Some? ==> r.value < |s| && p(s[r.value])
  {
    if |s| == 0 then None
    else if p(s[0]) then Some(0)
    else match Search(s[1..], p)
      case None =>
        assert forall i :: 1 <= i < |s| ==> s[i] == s[1..][i - 1];
        None
      case Some(j) => Some(j + 1)
  }

  /** `validate_password`: the checks in source order, each one able to reject. */
  function ValidatePassword(password: string): bool {
    if |password| < MinPasswordLength then false
    else if Search(password, IsUpper).None? then false
    else if Search(password, IsLower).None? then false
    else if Search(password, IsDigit).None? then false
    else if Search(password, IsSpecial).None? then false
    else true
  }

  /** The validator accepts exactly the passwords of at least 8 characters with an upper-case
      letter, a lower-case letter, a digit and one of the listed special characters. */
  lemma ValidatePasswordIff(password: string)
    ensures ValidatePassword(password) <==>
      && |password| >= MinPasswordLength
      && (exists i :: 0 <= i < |password| && IsUpper(password[i]))
      && (exists i :: 0 <= i < |password| && IsLower(password[i]))
      && (exists i :: 0 <= i < |password| && IsDigit(password[i]))
      && (exists i :: 0 <= i < |password| && IsSpecial(password[i]))
  {
    assert Contains(password, IsUpper) <==> exists i :: 0 <= i < |password| && IsUpper(password[i]);
    assert Contains(password, IsLower) <==> exists i :: 0 <= i < |password| && IsLower(password[i]);
    assert Contains(password, IsDigit) <==> exists i :: 0 <= i < |password| && IsDigit(password[i]);
    assert Contains(password, IsSpecial) <==> exists i :: 0 <= i < |password| && IsSpecial(password[i]);
  }

  /** Letters, digits, underscore and hyphen are outside the special-character class. */
  lemma NotSpecial(c: char)
    ensures (IsUpper(c) || IsLower(c) || IsDigit(c) || c == '_' || c == '-') ==> !IsSpecial(c)
  {
    if IsSpecial(c) {
      var j :| 0 <= j < |SpecialCharacters| && SpecialCharacters[j] == c;
    }
  }

  /** An underscore or hyphen does not count as a special character. */
  lemma UnderscoreIsNotSpecial()
    ensures !ValidatePassword("Abcdefg1_-")
    ensures ValidatePassword("Abcdefg1!")
  {
    var weak := "Abcdefg1_-";
    forall i | 0 <= i < |weak| ensures !IsSpecial(weak[i]) {
      NotSpecial(weak[i]);
    }
    var strong := "Abcdefg1!";
    assert IsUpper(strong[0]) && IsLower(strong[1]) && IsDigit(strong[7]) && IsSpecial(strong[8]);
  }

  // ---------------------------------------------------------------------------
  // Employee ids

  const EmployeePrefix: string := "emp"
  /** `EMPLOYEE_ID_MIN` and `EMPLOYEE_ID_MAX` at their default values. */
  const EmployeeIdMin: int := 1001
  const EmployeeIdMax: int := 1050

  /** `is_valid_employee_id`. */
  function IsValidEmployeeId(id: string): (ok: bool)
    ensures ok ==> StartsWith(id, EmployeePrefix)
  {
    if !StartsWith(id, EmployeePrefix) then false
    else match ParseInt(id[|EmployeePrefix|..])
      case None => false
      case Some(n) => EmployeeIdMin <= n <= EmployeeIdMax
  }

  /** `emp<n>` is valid exactly when `n` is in the configured range. */
  lemma EmployeeIdRange(n: nat)
    ensures IsValidEmployeeId(EmployeePrefix + NatToString(n)) <==> EmployeeIdMin <= n <= EmployeeIdMax
  {
    var id := EmployeePrefix + NatToString(n);
    assert id[..|EmployeePrefix|] == EmployeePrefix;
    assert id[|EmployeePrefix|..] == NatToString(n);
    ParseNatToString(n);
  }

  /** A suffix that is not an integer literal is rejected. */
  lemma UnparsableSuffixRejected(id: string)
    requires StartsWith(id, EmployeePrefix) && ParseInt(id[|EmployeePrefix|..]).None?
    ensures !IsValidEmployeeId(id)
  {
  }

  lemma SplitAt(t: string, n: nat)
    requires n <= |t|
    ensures t == t[..n] + t[n..]
  {
  }

  lemma FiftyValue()
    ensures AllDigits("50") && DigitsValue("50") == 50
  {
    assert "50"[..1] == "5" && "5"[..0] == "";
  }

  /** A digit string beginning "50" reads as 50, 500 to 509, or at least 5000. */
  lemma FiftyPrefixValue(t: string)
    requires AllDigits(t) && |t| >= 2 && t[..2] == "50"
    ensures DigitsValue(t) < EmployeeIdMin || DigitsValue(t) > EmployeeIdMax
  {
    var rest := t[2..];
    SplitAt(t, 2);
    DigitsValueAppend("50", rest);
    FiftyValue();
    if |rest| == 1 {
      DigitsValueUpperBound(rest);
    } else if |rest| >= 2 {
      Pow10Monotone(2, |rest|);
    }
  }

  /** No valid id starts with "emp50": the suffix would begin with the digits 5 and 0. */
  lemma NoValidIdStartsWithEmp50(id: string)
    requires StartsWith(id, "emp50")
    ensures !IsValidEmployeeId(id)
  {
    var t := id[3..];
    assert t[..2] == "50";
    assert IsDigit(t[0]);
    if AllDigits(t) {
      FiftyPrefixValue(t);
    }
  }

  // ---------------------------------------------------------------------------
  // Tokens

  /** `str.split(" ")`: the pieces between single spaces, empty pieces included. */
  function Split(s: string): (r: seq<string>)
    ensures |r| >= 1
    ensures forall i :: 0 <= i < |r| ==> ' ' !in r[i]
    ensures Join(r) == s
  {
    if |s| == 0 then [""]
    else if s[0] == ' ' then [""] + Split(s[1..])
    else
      var rest := Split(s[1..]);
      assert ' ' !in rest[0];
      assert s == [s[0]] + s[1..];
      [[s[0]] + rest[0]] + rest[1..]
  }

  /** `" ".join(pieces)`. */
  function Join(pieces: seq<string>): string
    requires |pieces| >= 1
  {
    if |pieces| == 1 then pieces[0] else pieces[0] + " " + Join(pieces[1..])
  }

  /** `split(" ")[1]`: None where Python raises IndexError. */
  function SecondWord(s: string): (r: Option<string>)
    ensures r.None? <==> ' ' !in s
    ensures r.Some? ==> ' ' !in r.value
  {
    var pieces := Split(s);
    if |pieces| >= 2 then
      assert ' ' in Join(pieces) by {
        assert Join(pieces) == pieces[0] + " " + Join(pieces[1..]);
        assert Join(pieces)[|pieces[0]|] == ' ';
      }
      Some(pieces[1])
    else
      None
  }

  /** The second word is the text after the first space, up to the next space. */
  lemma SecondWordAfterFirstSpace(scheme: string, token: string, rest: string)
    requires ' ' !in scheme && ' ' !in token
    ensures SecondWord(scheme + " " + token) == Some(token)
    ensures SecondWord(scheme + " " + token + " " + rest) == Some(token)
  {
    SecondWordOfTwo(scheme, token);
    SecondWordOfMore(scheme, token, rest);
  }

  lemma SecondWordOfTwo(scheme: string, token: string)
    requires ' ' !in scheme && ' ' !in token
    ensures SecondWord(scheme + " " + token) == Some(token)
  {
    SplitAfter(scheme, token);
    SplitNoSpace(token);
    assert Split(scheme + " " + token) == [scheme, token];
  }

  lemma SecondWordOfMore(scheme: string, token: string, rest: string)
    requires ' ' !in scheme && ' ' !in token
    ensures SecondWord(scheme + " " + token + " " + rest) == Some(token)
  {
    var u := token + " " + rest;
    SplitAfter(token, rest);
    SplitAfter(scheme, u);
    SpacedAssoc(scheme, token, rest);
    assert Split(scheme + " " + u)[1] == token;
  }

  lemma SpacedAssoc(a: string, b: string, c: string)
    ensures a + " " + b + " " + c == a + " " + (b + " " + c)
  {
  }

  /** A text without spaces splits into itself. */
  lemma {:induction false} SplitNoSpace(s: string)
    requires ' ' !in s
    ensures Split(s) == [s]
  {
    if |s| > 0 {
      assert forall i :: 0 <= i < |s| - 1 ==> s[1..][i] == s[i + 1];
      SplitNoSpace(s[1..]);
      assert [s[0]] + s[1..] == s;
    }
  }

  /** Splitting `a + " " + b` when `a` has no space. */
  lemma {:induction false} SplitAfter(a: string, b: string)
    requires ' ' !in a
    ensures Split(a + " " + b) == [a] + Split(b)
  {
    if |a| == 0 {
      assert a + " " + b == [' '] + b;
      assert ([' '] + b)[1..] == b;
    } else {
      var s := a + " " + b;
      assert s[0] == a[0] && s[1..] == a[1..] + " " + b;
      SplitAfter(a[1..], b);
      assert [a[0]] + a[1..] == a;
    }
  }

  /** The request parts the decorators read. */
  datatype Request = Request(authorization: Option<string>, cookieToken: Option<string>)

  /** Where token lookup ends: a token to decode, or a 401 reply. */
  datatype Lookup = Token(token: string) | Missing(message: string)

  /** Token lookup of `token_required`: the header's second word, then the cookie. An empty
      token from either source is the same as none. */
  function ExtractToken(r: Request): (l: Lookup)
    ensures r.authorization.Some? && ' ' !in r.authorization.value ==>
      l == Missing("Token is missing or invalid")
    ensures r.authorization.Some? && SecondWord(r.authorization.value).Some?
            && SecondWord(r.authorization.value).value != "" ==>
      l == Token(SecondWord(r.authorization.value).value)
    ensures l.Token? ==> l.token != ""
  {
    var header := match r.authorization
      case None => Some("")
      case Some(h) => SecondWord(h);
    match header
    case None => Missing("Token is missing or invalid")
    case Some(t) =>
      if t != "" then Token(t)
      else match r.cookieToken
        case Some(c) => if c != "" then Token(c) else Missing("Token is missing")
        case None => Missing("Token is missing")
  }

  /** The cookie is used only when the header is absent or its second word is empty, and no
      token from anywhere is a 401. */
  lemma TokenPrecedence(r: Request)
    ensures ExtractToken(r) == Missing("Token is missing") <==>
      (r.authorization.None? || SecondWord(r.authorization.value) == Some(""))
      && (r.cookieToken.None? || r.cookieToken.value == "")
    ensures (r.authorization.None? || SecondWord(r.authorization.value) == Some(""))
            && r.cookieToken.Some? && r.cookieToken.value != "" ==>
      ExtractToken(r) == Token(r.cookieToken.value)
  {
  }

  /** What `decode_token` returns: an error message, or the claims present in the payload. */
  datatype Claims = DecodeError(error: string) | Payload(sub: Option<string>, role: Option<string>)

  datatype Access = Granted(user: string) | Denied(status: int, message: string)

  const AdminRole: string := "admin"

  /** `token_required`: the payload's subject, or 401. */
  function TokenRequired(r: Request, decode: string -> Claims): (a: Access)
    ensures a.Denied? ==> a.status == 401
    ensures a.Granted? <==>
      ExtractToken(r).Token? && decode(ExtractToken(r).token).Payload? && decode(ExtractToken(r).token).sub.Some?
    ensures a.Granted? ==> a.user == decode(ExtractToken(r).token).sub.value
    ensures ExtractToken(r).Token? && decode(ExtractToken(r).token).DecodeError? ==>
      a.message == decode(ExtractToken(r).token).error
  {
    match ExtractToken(r)
    case Missing(m) => Denied(401, m)
    case Token(t) =>
      match decode(t)
      case DecodeError(e) => Denied(401, e)
      case Payload(sub, _) =>
        match sub
        case None => Denied(401, "Token is invalid")
        case Some(u) => Granted(u)
  }

  /** `admin_required`: like `token_required`, with 403 for a decoded role other than "admin". */
  function AdminRequired(r: Request, decode: string -> Claims): (a: Access)
    ensures a.Granted? <==>
      && ExtractToken(r).Token?
      && decode(ExtractToken(r).token).Payload?
      && decode(ExtractToken(r).token).role == Some(AdminRole)
      && decode(ExtractToken(r).token).sub.Some?
    ensures a == Denied(403, "Admin privileges required") <==>
      && ExtractToken(r).Token?
      && decode(ExtractToken(r).token).Payload?
      && decode(ExtractToken(r).token).role.Some?
      && decode(ExtractToken(r).token).role.value != AdminRole
    ensures a.Denied? ==> a.status == 401 || a.status == 403
  {
    match ExtractToken(r)
    case Missing(m) => Denied(401, m)
    case Token(t) =>
      match decode(t)
      case DecodeError(e) => Denied(401, e)
      case Payload(sub, role) =>
        match role
        case None => Denied(401, "Token is invalid")
        case Some(ro) =>
          if ro != AdminRole then Denied(403, "Admin privileges required")
          else match sub
            case None => Denied(401, "Token is invalid")
            case Some(u) => Granted(u)
  }

  /** Whatever `admin_required` lets through, `token_required` lets through as the same user. */
  lemma AdminImpliesToken(r: Request, decode: string -> Claims)
    requires AdminRequired(r, decode).Granted?
    ensures TokenRequired(r, decode) == AdminRequired(r, decode)
  {
  }
}

=== FILE: billing.dfy ===
/** The billing predictor of train_model.py (`BillingModel`): training pairs from
    consecutive purchases, the choice between the simple average model and the
    regression model, the prediction formula with its random jitter, and the
    in-memory part of recording a new purchase.

    Amounts are exact reals. `random.uniform(a, b)` is `a + (b - a) * r` for a
    draw `r` in [0, 1) given as a parameter, and `random.randint(1, 20)` is an
    item count given as a parameter. The fitted `LinearRegression` is opaque: a
    regression model remembers the pairs it was fitted on and is evaluated by the
    function parameter `line`. */
module Billing {

  import opened Wrappers
  import Dicts

  type CustomerId = string

  /** Prediction when no model can be loaded, or for a customer without history under a non-simple model. */
  const DefaultPrediction: real := 100.0
  /** Average bill of a simple model trained on no purchases at all. */
  const DefaultAverage: real := 100.0
  /** Weights of the last purchase and of the global average in the simple model. */
  const LastWeight: real := 0.7
  const AverageWeight: real := 0.3
  /** Half-widths of the multiplicative jitter. */
  const WideJitter: real := 0.1
  const NarrowJitter: real := 0.05
  /** A regression model needs at least this many training pairs. */
  const MinTrainingPairs: nat := 2
  /** Range of the random item count of a recorded purchase. */
  const MinItems: int := 1
  const MaxItems: int := 20

  datatype Purchase = Purchase(date: string, amount: real, itemsCount: int)

  datatype CustomerData = CustomerData(
    customerId: CustomerId,
    firstSeen: string,
    visitCount: int,
    purchases: seq<Purchase>,
    avgBill: Option<real>)

  /** `customer_data`: the JSON document, keyed by customer id in insertion order. */
  type Ledger = Dicts.Dict<CustomerId, CustomerData>

  /** One training sample: the previous bill (feature) and the bill after it (target). */
  datatype Pair = Pair(previous: real, current: real)

  /** The pickled model: `{'type': 'simple', 'avg_bill': a}`, `{'type': 'linear_regression', 'model': m}`,
      or an artifact of any other shape. */
  datatype Model = Simple(avgBill: real) | Regression(samples: seq<Pair>) | Unrecognised

  /** A `BillingModel`: the model in memory (None before loading), the model file on disk
      (None when it is missing or unreadable) and the customer data. */
  datatype Engine = Engine(model: Option<Model>, artifact: Option<Model>, ledger: Ledger)

  /** A value of `random.random()`. */
  type Draw = r: real | 0.0 <= r < 1.0

  ghost predicate ValidEngine(e: Engine) {
    Dicts.Valid(e.ledger)
  }

  // ---------------------------------------------------------------------------
  // Arithmetic helpers

  function Sum(xs: seq<real>): real {
    if |xs| == 0 then 0.0 else Sum(xs[..|xs| - 1]) + xs[|xs| - 1]
  }

  /** `sum(xs) / len(xs)`. */
  function Mean(xs: seq<real>): real
    requires |xs| > 0
  {
    Sum(xs) / (|xs| as real)
  }

  /** `random.uniform(a, b)` for the draw `r`. */
  function Uniform(a: real, b: real, r: Draw): (u: real)
    requires a <= b
    ensures a <= u <= b
  {
    var w := b - a;
    assert w * r <= w by {
      assert w * (1.0 - r) >= 0.0;
    }
    assert w * r >= 0.0;
    a + w * r
  }

  /** `base * (1 + u)`. */
  function Scale(base: real, u: real): real {
    base * (1.0 + u)
  }

  /** `x` is `base` scaled by a factor in [1 - spread, 1 + spread]. */
  ghost predicate Jittered(x: real, base: real, spread: real) {
    exists u :: -spread <= u <= spread && x == Scale(base, u)
  }

  // ---------------------------------------------------------------------------
  // Training data

  function Amounts(ps: seq<Purchase>): (r: seq<real>)
    ensures |r| == |ps|
    ensures forall i :: 0 <= i < |ps| ==> r[i] == ps[i].amount
  {
    seq(|ps|, i requires 0 <= i < |ps| => ps[i].amount)
  }

  /** The pairs of one customer: each purchase amount with the one after it. */
  function ConsecutivePairs(ps: seq<Purchase>): (r: seq<Pair>)
    ensures |r| == if |ps| < 2 then 0 else |ps| - 1
    ensures forall i :: 0 <= i < |r| ==> r[i] == Pair(ps[i].amount, ps[i + 1].amount)
  {
    if |ps| < 2 then [] else [Pair(ps[0].amount, ps[1].amount)] + ConsecutivePairs(ps[1..])
  }

  /** Number of pairs a customer contributes: `len - 1`, or nothing below two purchases. */
  function PairsOf(c: CustomerData): nat {
    if |c.purchases| < 2 then 0 else |c.purchases| - 1
  }

  function PairCount(cs: seq<CustomerData>): nat {
    if |cs| == 0 then 0 else PairCount(cs[..|cs| - 1]) + PairsOf(cs[|cs| - 1])
  }

  /** The samples of `prepare_training_data`, customer after customer in dictionary order. */
  function TrainingPairs(cs: seq<CustomerData>): (r: seq<Pair>)
    ensures |r| == PairCount(cs)
  {
    if |cs| == 0 then []
    else TrainingPairs(cs[..|cs| - 1]) + ConsecutivePairs(cs[|cs| - 1].purchases)
  }

  /** `prepare_training_data`: None when no customer has two purchases. */
  function PrepareTrainingData(cs: seq<CustomerData>): (r: Option<seq<Pair>>)
    ensures r.None? <==> PairCount(cs) == 0
    ensures r.Some? ==> r.value == TrainingPairs(cs) && |r.value| > 0
  {
    var pairs := TrainingPairs(cs);
    if |pairs| == 0 then None else Some(pairs)
  }

  /** Every purchase amount of every customer, in dictionary order. */
  function AllAmounts(cs: seq<CustomerData>): seq<real> {
    if |cs| == 0 then [] else AllAmounts(cs[..|cs| - 1]) + Amounts(cs[|cs| - 1].purchases)
  }

  /** The average bill of the simple model: the mean of all amounts, or 100.0 with no purchases. */
  function SimpleAverage(cs: seq<CustomerData>): real {
    var amounts := AllAmounts(cs);
    if |amounts| == 0 then DefaultAverage else Mean(amounts)
  }

  /** `train`: the simple model below two training pairs, the regression on exactly the pairs otherwise. */
  function Train(ledger: Ledger): (m: Model)
    requires Dicts.Valid(ledger)
    ensures m.Simple? <==> PairCount(Dicts.Values(ledger)) < MinTrainingPairs
    ensures m.Simple? ==> m.avgBill == SimpleAverage(Dicts.Values(ledger))
    ensures !m.Simple? ==> m == Regression(TrainingPairs(Dicts.Values(ledger)))
  {
    var cs := Dicts.Values(ledger);
    var data := PrepareTrainingData(cs);
    if data.None? || |data.value| < MinTrainingPairs then Simple(SimpleAverage(cs))
    else Regression(data.value)
  }

  /** `train` on an engine: the model is replaced in memory and saved to the model file. */
  function Retrain(e: Engine): (r: Engine)
    requires ValidEngine(e)
    ensures ValidEngine(r) && r.ledger == e.ledger
    ensures r.model == Some(Train(e.ledger)) && r.artifact == r.model
  {
    var m := Train(e.ledger);
    e.(model := Some(m), artifact := Some(m))
  }

  // ---------------------------------------------------------------------------
  // Prediction

  /** The model `predict` works with: the one in memory, else the one loaded from the file. */
  function ActiveModel(e: Engine): Option<Model> {
    if e.model.Some? then e.model else e.artifact
  }

  /** The purchases on record for a customer; an unknown customer has none. */
  function History(ledger: Ledger, id: CustomerId): seq<Purchase> {
    if id in ledger.entries then ledger.entries[id].purchases else []
  }

  function LastAmount(ps: seq<Purchase>): real
    requires |ps| > 0
  {
    ps[|ps| - 1].amount
  }

  datatype Forecast = Forecast(amount: real, engine: Engine)

  /** `predict(customer_id)`; the returned engine holds the model loaded on the way. */
  function Predict(e: Engine, id: CustomerId, r: Draw, line: (seq<Pair>, real) -> real): (f: Forecast)
    ensures f.engine == e.(model := ActiveModel(e))
    ensures ActiveModel(e).None? ==> f.amount == DefaultPrediction
    ensures ActiveModel(e).Some? && |History(e.ledger, id)| == 0 ==>
      (if ActiveModel(e).value.Simple? then Jittered(f.amount, ActiveModel(e).value.avgBill, WideJitter)
       else f.amount == DefaultPrediction)
    ensures ActiveModel(e).Some? && |History(e.ledger, id)| > 0 ==>
      var last := LastAmount(History(e.ledger, id));
      match ActiveModel(e).value
      case Simple(avg) => Jittered(f.amount, LastWeight * last + AverageWeight * avg, NarrowJitter)
      case Regression(samples) => f.amount == line(samples, last)
      case Unrecognised => Jittered(f.amount, last, WideJitter)
  {
    var loaded := e.(model := ActiveModel(e));
    match loaded.model
    case None => Forecast(DefaultPrediction, loaded)
    case Some(m) =>
      var ps := History(e.ledger, id);
      if |ps| == 0 then
        if m.Simple? then Forecast(Scale(m.avgBill, Uniform(-WideJitter, WideJitter, r)), loaded)
        else Forecast(DefaultPrediction, loaded)
      else
        var last := LastAmount(ps);
        match m
        case Simple(avg) =>
          Forecast(Scale(LastWeight * last + AverageWeight * avg, Uniform(-NarrowJitter, NarrowJitter, r)), loaded)
        case Regression(samples) => Forecast(line(samples, last), loaded)
        case Unrecognised => Forecast(Scale(last, Uniform(-WideJitter, WideJitter, r)), loaded)
  }

  // ---------------------------------------------------------------------------
  // Recording a purchase

  datatype Update = Update(success: bool, engine: Engine)

  /** The record a purchase is appended to: the customer's, or a fresh one with one visit and no purchases. */
  function RecordFor(ledger: Ledger, id: CustomerId, today: string): CustomerData {
    if id in ledger.entries then ledger.entries[id] else CustomerData(id, today, 1, [], None)
  }

  /** `update_with_new_purchase` on the in-memory data: append, recount, re-average, retrain. */
  function UpdateWithNewPurchase(e: Engine, id: CustomerId, amount: real, today: string, items: int): (u: Update)
    requires ValidEngine(e)
    requires MinItems <= items <= MaxItems
    ensures u.success
    ensures ValidEngine(u.engine)
    ensures id in u.engine.ledger.entries
    ensures var before := History(e.ledger, id);
      var after := u.engine.ledger.entries[id];
      && after.purchases == before + [Purchase(today, amount, items)]
      && after.visitCount == |after.purchases|
      && after.avgBill == Some(Mean(Amounts(after.purchases)))
    ensures id !in e.ledger.entries ==>
      u.engine.ledger.entries[id].customerId == id && u.engine.ledger.entries[id].firstSeen == today
    ensures id in e.ledger.entries ==>
      && u.engine.ledger.entries[id].customerId == e.ledger.entries[id].customerId
      && u.engine.ledger.entries[id].firstSeen == e.ledger.entries[id].firstSeen
    ensures forall k :: k in e.ledger.entries && k != id ==>
      k in u.engine.ledger.entries && u.engine.ledger.entries[k] == e.ledger.entries[k]
    ensures u.engine.ledger.entries.Keys == e.ledger.entries.Keys + {id}
    ensures u.engine.model == Some(Train(u.engine.ledger)) && u.engine.artifact == u.engine.model
  {
    var base := RecordFor(e.ledger, id, today);
    var purchases := base.purchases + [Purchase(today, amount, items)];
    var updated := base.(purchases := purchases, visitCount := |purchases|,
                         avgBill := Some(Mean(Amounts(purchases))));
    Update(true, Retrain(e.(ledger := Dicts.Put(e.ledger, id, updated))))
  }

  // ---------------------------------------------------------------------------
  // Properties

  /** `p` is the pair of amounts of two consecutive purchases in `ps`. */
  ghost predicate IsStep(ps: seq<Purchase>, p: Pair) {
    exists i :: 0 <= i < |ps| - 1 && p == Pair(ps[i].amount, ps[i + 1].amount)
  }

  lemma ConsecutivePairsContents(ps: seq<Purchase>, p: Pair)
    ensures p in ConsecutivePairs(ps) <==> IsStep(ps, p)
  {
    var r := ConsecutivePairs(ps);
    if p in r {
      var i :| 0 <= i < |r| && r[i] == p;
      assert 0 <= i < |ps| - 1 && p == Pair(ps[i].amount, ps[i + 1].amount);
    }
    if IsStep(ps, p) {
      var i :| 0 <= i < |ps| - 1 && p == Pair(ps[i].amount, ps[i + 1].amount);
      assert r[i] == p;
    }
  }

  /** The training pairs are exactly the consecutive amounts `(p[i], p[i+1])` of some customer. */
  lemma {:induction false} TrainingPairsContents(cs: seq<CustomerData>, p: Pair)
    ensures p in TrainingPairs(cs) <==> exists k :: 0 <= k < |cs| && IsStep(cs[k].purchases, p)
  {
    if |cs| > 0 {
      var init := cs[..|cs| - 1];
      var last := cs[|cs| - 1];
      TrainingPairsContents(init, p);
      ConsecutivePairsContents(last.purchases, p);
      assert TrainingPairs(cs) == TrainingPairs(init) + ConsecutivePairs(last.purchases);
      if p in TrainingPairs(cs) {
        if p in TrainingPairs(init) {
          var k :| 0 <= k < |init| && IsStep(init[k].purchases, p);
          assert cs[k] == init[k];
        } else {
          assert IsStep(cs[|cs| - 1].purchases, p);
        }
      }
      if exists k :: 0 <= k < |cs| && IsStep(cs[k].purchases, p) {
        var k :| 0 <= k < |cs| && IsStep(cs[k].purchases, p);
        if k < |init| {
          assert init[k] == cs[k];
        }
      }
    }
  }

  /** Customers with fewer than two purchases contribute no pairs. */
  lemma {:induction false} NoPairsBelowTwoPurchases(cs: seq<CustomerData>)
    requires forall k :: 0 <= k < |cs| ==> |cs[k].purchases| < 2
    ensures TrainingPairs(cs) == []
    ensures PrepareTrainingData(cs).None?
  {
    if |cs| > 0 {
      NoPairsBelowTwoPurchases(cs[..|cs| - 1]);
    }
  }

  lemma {:induction false} SumBounds(xs: seq<real>, lo: real, hi: real)
    requires forall i :: 0 <= i < |xs| ==> lo <= xs[i] <= hi
    ensures lo * (|xs| as real) <= Sum(xs) <= hi * (|xs| as real)
  {
    if |xs| > 0 {
      SumBounds(xs[..|xs| - 1], lo, hi);
    }
  }

  /** The mean lies between the smallest and the largest amount. */
  lemma MeanBounds(xs: seq<real>, lo: real, hi: real)
    requires |xs| > 0
    requires forall i :: 0 <= i < |xs| ==> lo <= xs[i] <= hi
    ensures lo <= Mean(xs) <= hi
  {
    SumBounds(xs, lo, hi);
    var n := |xs| as real;
    assert Mean(xs) * n == Sum(xs);
  }

  /** With non-negative amounts and a simple model trained from them, every prediction is non-negative. */
  lemma SimplePredictionNonNegative(e: Engine, id: CustomerId, r: Draw, line: (seq<Pair>, real) -> real)
    requires ValidEngine(e)
    requires e.model == Some(Simple(SimpleAverage(Dicts.Values(e.ledger))))
    requires forall k :: k in e.ledger.entries ==>
      forall i :: 0 <= i < |e.ledger.entries[k].purchases| ==> e.ledger.entries[k].purchases[i].amount >= 0.0
    ensures Predict(e, id, r, line).amount >= 0.0
  {
    var cs := Dicts.Values(e.ledger);
    AllAmountsNonNegative(cs);
    var amounts := AllAmounts(cs);
    if |amounts| > 0 {
      var hi := MaxOf(amounts);
      MeanBounds(amounts, 0.0, hi);
    }
    var avg := SimpleAverage(cs);
    assert avg >= 0.0;
    var f := Predict(e, id, r, line);
    var ps := History(e.ledger, id);
    if |ps| == 0 {
      var u :| -WideJitter <= u <= WideJitter && f.amount == Scale(avg, u);
      ScaleNonNegative(avg, u);
    } else {
      assert id in e.ledger.entries;
      assert ps[|ps| - 1].amount >= 0.0;
      var base := LastWeight * LastAmount(ps) + AverageWeight * avg;
      var u :| -NarrowJitter <= u <= NarrowJitter && f.amount == Scale(base, u);
      ScaleNonNegative(base, u);
    }
  }

  lemma ScaleNonNegative(base: real, u: real)
    requires base >= 0.0 && u >= -1.0
    ensures Scale(base, u) >= 0.0
  {
  }

  function MaxOf(xs: seq<real>): (m: real)
    requires |xs| > 0
    ensures forall i :: 0 <= i < |xs| ==> xs[i] <= m
  {
    if |xs| == 1 then xs[0]
    else
      var rest := MaxOf(xs[1..]);
      assert forall i :: 1 <= i < |xs| ==> xs[i] == xs[1..][i - 1];
      if xs[0] >= rest then xs[0] else rest
  }

  lemma {:induction false} AllAmountsNonNegative(cs: seq<CustomerData>)
    requires forall k :: 0 <= k < |cs| ==>
      forall i :: 0 <= i < |cs[k].purchases| ==> cs[k].purchases[i].amount >= 0.0
    ensures forall i :: 0 <= i < |AllAmounts(cs)| ==> AllAmounts(cs)[i] >= 0.0
  {
    if |cs| > 0 {
      AllAmountsNonNegative(cs[..|cs| - 1]);
    }
  }

  /** After recording a purchase, `predict` for that customer is driven by the new amount:
      the simple model weighs it against the retrained average, the regression evaluates its line at it. */
  lemma PredictAfterUpdate(e: Engine, id: CustomerId, amount: real, today: string, items: int,
                           r: Draw, line: (seq<Pair>, real) -> real)
    requires ValidEngine(e)
    requires MinItems <= items <= MaxItems
    ensures var e' := UpdateWithNewPurchase(e, id, amount, today, items).engine;
      var f := Predict(e', id, r, line);
      var m := Train(e'.ledger);
      && (m.Simple? ==> Jittered(f.amount, LastWeight * amount + AverageWeight * SimpleAverage(Dicts.Values(e'.ledger)), NarrowJitter))
      && (m.Regression? ==> f.amount == line(m.samples, amount))
      && !m.Unrecognised?
  {
    var e' := UpdateWithNewPurchase(e, id, amount, today, items).engine;
    var m := Train(e'.ledger);
    assert ActiveModel(e') == Some(m);
    var ps := History(e'.ledger, id);
    assert ps == History(e.ledger, id) + [Purchase(today, amount, items)];
    assert |ps| > 0 && LastAmount(ps) == amount;
  }

  /** The first purchase ever recorded: the customer has one visit averaging that amount, the
      retrained model is the simple one with that average, and the next prediction for the
      customer is the amount within five percent. */
  lemma FirstPurchase(e: Engine, id: CustomerId, amount: real, today: string, items: int,
                      r: Draw, line: (seq<Pair>, real) -> real)
    requires e.ledger == Dicts.Empty()
    requires MinItems <= items <= MaxItems
    ensures var e' := UpdateWithNewPurchase(e, id, amount, today, items).engine;
      && e'.ledger.entries[id].visitCount == 1
      && e'.ledger.entries[id].avgBill == Some(amount)
      && e'.model == Some(Simple(amount))
      && Jittered(Predict(e', id, r, line).amount, amount, NarrowJitter)
  {
    var e' := UpdateWithNewPurchase(e, id, amount, today, items).engine;
    assert e'.ledger.keys == [id];
    var ps := e'.ledger.entries[id].purchases;
    assert ps == [Purchase(today, amount, items)];
    assert Amounts(ps) == [amount];
    assert [amount][..0] == [];
    assert Sum([amount]) == amount;
    assert Mean([amount]) == amount / 1.0;
    OnlyCustomer(e'.ledger, id, Purchase(today, amount, items));
    PredictAfterUpdate(e, id, amount, today, items, r, line);
    var base := LastWeight * amount + AverageWeight * SimpleAverage(Dicts.Values(e'.ledger));
    assert base == amount;
    assert Jittered(Predict(e', id, r, line).amount, base, NarrowJitter);
  }

  /** A ledger holding one customer with one purchase trains the simple model on that amount. */
  lemma OnlyCustomer(ledger: Ledger, id: CustomerId, p: Purchase)
    requires Dicts.Valid(ledger) && ledger.keys == [id] && id in ledger.entries
    requires ledger.entries[id].purchases == [p]
    ensures SimpleAverage(Dicts.Values(ledger)) == p.amount
    ensures Train(ledger) == Simple(p.amount)
  {
    var c := ledger.entries[id];
    var cs := Dicts.Values(ledger);
    assert cs == [c];
    assert cs[..0] == [];
    assert Amounts(c.purchases) == [p.amount];
    assert AllAmounts(cs) == [p.amount];
    assert [p.amount][..0] == [];
    assert Sum([p.amount]) == p.amount;
    assert PairCount(cs) == 0;
  }
}

=== FILE: cache.dfy ===
/** The `latest_detections` cache of app.py and its dashboard views. The cache is
    a Python dict from customer id to detection event; the views list its values
    sorted by timestamp, newest first, with Python's stable `sort(reverse=True)`
    (events with equal timestamps keep their dictionary order), and keep the
    first ten. Timestamps are `isoformat()` strings, whose order is the order of
    the instants; they are modelled as the instants themselves. */
module LatestCache {

  import opened Wrappers
  import Dicts

  type CustomerId = string

  /** `datetime.now()` in microseconds. */
  type Instant = int

  /** How many events the recent views show. */
  const RecentLimit: nat := 10

  datatype Detection = Detection(
    customerId: CustomerId,
    timestamp: Instant,
    imageUrl: Option<string>,
    predictedBill: real,
    visitCount: int)

  type Cache = Dicts.Dict<CustomerId, Detection>

  /** Each event is at least as new as the one after it. */
  ghost predicate Descending(s: seq<Detection>) {
    |s| < 2 || (s[0].timestamp >= s[1].timestamp && Descending(s[1..]))
  }

  /** Newest first, stated over every pair of positions. */
  lemma {:induction false} DescendingPairwise(s: seq<Detection>)
    requires Descending(s)
    ensures forall i, j :: 0 <= i < j < |s| ==> s[i].timestamp >= s[j].timestamp
  {
    if |s| >= 2 {
      DescendingPairwise(s[1..]);
      assert forall j :: 1 <= j < |s| ==> s[j] == s[1..][j - 1];
    }
  }

  /** Inserts `x` into a newest-first list after every event at least as new: a later
      element of the input goes after earlier ones with the same timestamp. */
  function InsertDesc(x: Detection, s: seq<Detection>): (r: seq<Detection>)
    requires Descending(s)
    ensures Descending(r)
    ensures |r| == |s| + 1
    ensures multiset(r) == multiset(s) + multiset{x}
    ensures r[0] == if |s| > 0 && s[0].timestamp >= x.timestamp then s[0] else x
  {
    if |s| == 0 then [x]
    else if s[0].timestamp >= x.timestamp then
      var rest := InsertDesc(x, s[1..]);
      HeadTail(s);
      TailOfCons(s[0], rest);
      [s[0]] + rest
    else
      [x] + s
  }

  /** `sort(key=timestamp, reverse=True)`, by insertion of each element in turn. */
  function SortDesc(s: seq<Detection>): (r: seq<Detection>)
    ensures Descending(r)
    ensures multiset(r) == multiset(s)
    ensures |r| == |s|
  {
    if |s| == 0 then []
    else
      assert s == s[..|s| - 1] + [s[|s| - 1]];
      InsertDesc(s[|s| - 1], SortDesc(s[..|s| - 1]))
  }

  /** `[x]` when `x` has timestamp `t`, else nothing. */
  function IfAt(x: Detection, t: Instant): seq<Detection> {
    if x.timestamp == t then [x] else []
  }

  /** The events of `s` with timestamp `t`, in order. */
  function WithTimestamp(s: seq<Detection>, t: Instant): seq<Detection> {
    if |s| == 0 then []
    else IfAt(s[0], t) + WithTimestamp(s[1..], t)
  }

  lemma {:induction false} WithTimestampAppend(a: seq<Detection>, b: seq<Detection>, t: Instant)
    ensures WithTimestamp(a + b, t) == WithTimestamp(a, t) + WithTimestamp(b, t)
  {
    if |a| > 0 {
      assert (a + b)[1..] == a[1..] + b;
      WithTimestampAppend(a[1..], b, t);
    } else {
      assert a + b == b;
    }
  }

  lemma {:induction false} WithTimestampNone(s: seq<Detection>, t: Instant)
    requires forall i :: 0 <= i < |s| ==> s[i].timestamp < t
    ensures WithTimestamp(s, t) == []
  {
    if |s| > 0 {
      WithTimestampNone(s[1..], t);
    }
  }

  lemma WithTimestampCons(y: Detection, rest: seq<Detection>, t: Instant)
    ensures WithTimestamp([y] + rest, t) == IfAt(y, t) + WithTimestamp(rest, t)
  {
    assert ([y] + rest)[0] == y && ([y] + rest)[1..] == rest;
  }

  /** Putting a strictly newer event in front keeps the order of every timestamp group. */
  lemma NewerInFrontStable(x: Detection, s: seq<Detection>, t: Instant)
    requires Descending(s) && |s| > 0 && s[0].timestamp < x.timestamp
    ensures WithTimestamp([x] + s, t) == WithTimestamp(s, t) + IfAt(x, t)
  {
    WithTimestampCons(x, s, t);
    if x.timestamp == t {
      DescendingPairwise(s);
      WithTimestampNone(s, t);
    }
  }

  /** Putting the same event in front of two lists keeps a relation between their groups. */
  lemma ConsStable(y: Detection, rest: seq<Detection>, u: seq<Detection>, c: seq<Detection>, t: Instant)
    requires WithTimestamp(rest, t) == WithTimestamp(u, t) + c
    ensures WithTimestamp([y] + rest, t) == WithTimestamp([y] + u, t) + c
  {
    WithTimestampCons(y, rest, t);
    WithTimestampCons(y, u, t);
    ConcatAssoc(IfAt(y, t), WithTimestamp(u, t), c);
  }

  lemma ConcatAssoc<T>(a: seq<T>, b: seq<T>, c: seq<T>)
    ensures a + (b + c) == (a + b) + c
  {
  }

  /** Inserting behind an event at least as new keeps the order of every timestamp group,
      given that it does so in the tail. */
  lemma OlderBehindStable(x: Detection, s: seq<Detection>, t: Instant)
    requires Descending(s) && |s| > 0 && s[0].timestamp >= x.timestamp
    requires WithTimestamp(InsertDesc(x, s[1..]), t) == WithTimestamp(s[1..], t) + IfAt(x, t)
    ensures WithTimestamp(InsertDesc(x, s), t) == WithTimestamp(s, t) + IfAt(x, t)
  {
    var rest := InsertDesc(x, s[1..]);
    InsertDescBehind(x, s);
    ConsStable(s[0], rest, s[1..], IfAt(x, t), t);
    HeadTail(s);
  }

  lemma TailOfCons<T>(y: T, s: seq<T>)
    ensures ([y] + s)[0] == y && ([y] + s)[1..] == s
  {
  }

  lemma HeadTail<T>(s: seq<T>)
    requires |s| > 0
    ensures [s[0]] + s[1..] == s
  {
  }

  lemma InsertDescBehind(x: Detection, s: seq<Detection>)
    requires Descending(s) && |s| > 0 && s[0].timestamp >= x.timestamp
    ensures InsertDesc(x, s) == [s[0]] + InsertDesc(x, s[1..])
  {
  }

  lemma {:induction false} InsertDescStable(x: Detection, s: seq<Detection>, t: Instant)
    requires Descending(s)
    ensures WithTimestamp(InsertDesc(x, s), t) == WithTimestamp(s, t) + IfAt(x, t)
  {
    if |s| == 0 {
      WithTimestampCons(x, [], t);
      assert [x] + [] == [x];
    } else if s[0].timestamp >= x.timestamp {
      InsertDescStable(x, s[1..], t);
      OlderBehindStable(x, s, t);
    } else {
      assert InsertDesc(x, s) == [x] + s;
      NewerInFrontStable(x, s, t);
    }
  }

  /** The sort is stable: the events sharing a timestamp appear in their input order. */
  lemma WithTimestampSnoc(s: seq<Detection>, t: Instant)
    requires |s| > 0
    ensures WithTimestamp(s, t) == WithTimestamp(s[..|s| - 1], t) + IfAt(s[|s| - 1], t)
  {
    var last := s[|s| - 1];
    WithTimestampAppend(s[..|s| - 1], [last], t);
    assert s[..|s| - 1] + [last] == s;
    assert [last][1..] == [];
  }

  lemma {:induction false} SortDescStable(s: seq<Detection>, t: Instant)
    ensures WithTimestamp(SortDesc(s), t) == WithTimestamp(s, t)
  {
    if |s| > 0 {
      var init := s[..|s| - 1];
      var last := s[|s| - 1];
      var sorted := SortDesc(init);
      SortDescStable(init, t);
      InsertDescStable(last, sorted, t);
      WithTimestampSnoc(s, t);
    }
  }

  function Min(a: nat, b: nat): nat {
    if a <= b then a else b
  }

  lemma {:induction false} DescendingPrefix(s: seq<Detection>, n: nat)
    requires Descending(s) && n <= |s|
    ensures Descending(s[..n])
  {
    if n >= 2 {
      DescendingPrefix(s[1..], n - 1);
      assert s[..n][1..] == s[1..][..n - 1];
    }
  }

  lemma MultisetSplit(s: seq<Detection>, n: nat)
    requires n <= |s|
    ensures multiset(s) == multiset(s[..n]) + multiset(s[n..])
  {
    assert s == s[..n] + s[n..];
  }

  /** `dashboard`, `manual_lookup`, `/api/recent_customers`: the ten newest events, newest first. */
  function Recent(c: Cache): (r: seq<Detection>)
    requires Dicts.Valid(c)
    ensures |r| == Min(RecentLimit, |c.keys|)
    ensures Descending(r)
    ensures multiset(r) <= multiset(Dicts.Values(c))
  {
    var sorted := SortDesc(Dicts.Values(c));
    var n := Min(RecentLimit, |sorted|);
    DescendingPrefix(sorted, n);
    MultisetSplit(sorted, n);
    sorted[..n]
  }

  /** Every event left out of the recent view is at most as new as every event in it. */
  lemma RecentDominates(c: Cache, x: Detection, e: Detection)
    requires Dicts.Valid(c)
    requires x in Recent(c)
    requires e in multiset(Dicts.Values(c)) - multiset(Recent(c))
    ensures e.timestamp <= x.timestamp
  {
    var sorted := SortDesc(Dicts.Values(c));
    var n := |Recent(c)|;
    assert Recent(c) == sorted[..n];
    MultisetSplit(sorted, n);
    assert e in multiset(sorted[n..]);
    var j :| n <= j < |sorted| && sorted[j] == e;
    var i :| 0 <= i < n && sorted[i] == x;
    DescendingPairwise(sorted);
  }

  /** The head of the sorted list is at least as new as any event of the input. */
  lemma SortedHeadNewest(vs: seq<Detection>, v: Detection)
    requires v in vs
    ensures |SortDesc(vs)| > 0
    ensures SortDesc(vs)[0] in vs
    ensures v.timestamp <= SortDesc(vs)[0].timestamp
  {
    var sorted := SortDesc(vs);
    assert v in multiset(vs);
    assert v in multiset(sorted);
    var j :| 0 <= j < |sorted| && sorted[j] == v;
    DescendingPairwise(sorted);
    assert sorted[0] in multiset(sorted);
  }

  lemma HeadIsNewest(c: Cache)
    requires Dicts.Valid(c) && |c.keys| > 0
    ensures var top := SortDesc(Dicts.Values(c))[0];
      (exists k :: k in c.entries && c.entries[k] == top)
      && forall k :: k in c.entries ==> c.entries[k].timestamp <= top.timestamp
  {
    var vs := Dicts.Values(c);
    SortedHeadNewest(vs, vs[0]);
    var top := SortDesc(vs)[0];
    Dicts.ValuesContents(c, top);
    forall k | k in c.entries ensures c.entries[k].timestamp <= top.timestamp {
      var i :| 0 <= i < |c.keys| && c.keys[i] == k;
      SortedHeadNewest(vs, vs[i]);
    }
  }

  datatype Latest = NoCustomers | LatestCustomer(detection: Detection)

  /** `/api/latest_customer`: `no_customers` on an empty cache, else the head of the sorted list. */
  function GetLatest(c: Cache): (r: Latest)
    requires Dicts.Valid(c)
    ensures r.NoCustomers? <==> c.entries == map[]
    ensures r.LatestCustomer? ==>
      (exists k :: k in c.entries && c.entries[k] == r.detection)
      && forall k :: k in c.entries ==> c.entries[k].timestamp <= r.detection.timestamp
  {
    var vs := Dicts.Values(c);
    if |vs| == 0 then
      assert c.entries.Keys == {};
      NoCustomers
    else
      HeadIsNewest(c);
      LatestCustomer(SortDesc(vs)[0])
  }

  /** The dashboard's latest customer is the head of its recent list, or none when that is empty. */
  lemma LatestIsHeadOfRecent(c: Cache)
    requires Dicts.Valid(c)
    ensures |Recent(c)| == 0 <==> GetLatest(c).NoCustomers?
    ensures |Recent(c)| > 0 ==> GetLatest(c) == LatestCustomer(Recent(c)[0])
  {
  }

  /** `latest_detections[id] = detection`: a customer seen again keeps its place in the
      order, a new one goes last. */
  function Publish(c: Cache, d: Detection): (r: Cache)
    requires Dicts.Valid(c)
    ensures Dicts.Valid(r)
    ensures r.entries == c.entries[d.customerId := d]
    ensures d.customerId in c.entries ==> r.keys == c.keys
    ensures d.customerId !in c.entries ==> r.keys == c.keys + [d.customerId]
  {
    Dicts.Put(c, d.customerId, d)
  }
}

=== FILE: customers.dfy ===
/** The `customers` collection of the document store, shared by the server and
    the camera loop. It is a sequence of documents in natural (insertion) order:
    `find_one` returns the first document with the id, `update_one` changes only
    that document (and nothing when there is none), `insert_one` appends. An
    absent `face_embedding` or `face_images` field is the empty sequence. */
module Customers {

  import opened Wrappers

  type CustomerId = string

  /** Instants of `datetime.now()`, in microseconds. */
  type Instant = int

  datatype FaceImage = FaceImage(imageId: string, captureDate: Instant, imagePath: string)

  datatype CustomerDoc = CustomerDoc(
    customerId: CustomerId,
    faceEmbedding: seq<real>,
    registrationDate: Instant,
    lastSeenDate: Instant,
    visitCount: Option<int>,
    faceImages: seq<FaceImage>)

  type Collection = seq<CustomerDoc>

  /** Position of the first document with the id. */
  function FindIndex(c: Collection, id: CustomerId): (r: Option<nat>)
    ensures r.None? <==> forall i :: 0 <= i < |c| ==> c[i].customerId != id
    ensures r.Some? ==>
      && r.value < |c| && c[r.value].customerId == id
      && (forall i :: 0 <= i < r.value ==> c[i].customerId != id)
  {
    if |c| == 0 then None
    else if c[0].customerId == id then Some(0)
    else
      match FindIndex(c[1..], id)
      case None => None
      case Some(i) => Some(i + 1)
  }

  /** The first position holding the id is the one `FindIndex` returns. */
  lemma FindIndexAt(c: Collection, id: CustomerId, i: nat)
    requires i < |c| && c[i].customerId == id
    requires forall j :: 0 <= j < i ==> c[j].customerId != id
    ensures FindIndex(c, id) == Some(i)
  {
    assert FindIndex(c, id).Some?;
  }

  /** `find_one({"customer_id": id})`: the first document with the id in natural order. */
  function FindOne(c: Collection, id: CustomerId): (r: Option<CustomerDoc>)
    ensures r.Some? <==> exists i :: 0 <= i < |c| && c[i].customerId == id
    ensures r.Some? ==> r.value in c && r.value.customerId == id
    ensures r.Some? ==>
      exists i :: 0 <= i < |c| && c[i] == r.value && forall j :: 0 <= j < i ==> c[j].customerId != id
  {
    match FindIndex(c, id)
    case None => None
    case Some(i) => Some(c[i])
  }

  /** `$inc: {visit_count: 1}`: a missing count becomes 1. */
  function IncrementVisits(v: Option<int>): (r: Option<int>)
    ensures r == Some(v.GetOr(0) + 1)
  {
    match v
    case None => Some(1)
    case Some(n) => Some(n + 1)
  }

  /** One visit recorded on a document: `$set last_seen_date`, `$inc visit_count` and,
      when given, `$push face_images`. */
  function Touch(d: CustomerDoc, now: Instant, image: Option<FaceImage>): (r: CustomerDoc)
    ensures r.customerId == d.customerId && r.faceEmbedding == d.faceEmbedding
    ensures r.registrationDate == d.registrationDate && r.lastSeenDate == now
    ensures r.visitCount == Some(d.visitCount.GetOr(0) + 1)
    ensures r.faceImages == d.faceImages + (if image.Some? then [image.value] else [])
  {
    var images := match image
      case None => d.faceImages
      case Some(img) => d.faceImages + [img];
    d.(lastSeenDate := now, visitCount := IncrementVisits(d.visitCount), faceImages := images)
  }

  /** `update_one` of a visit on the first document with the id; no match changes nothing. */
  function RecordVisit(c: Collection, id: CustomerId, now: Instant, image: Option<FaceImage>): (r: Collection)
    ensures |r| == |c|
    ensures FindIndex(c, id).None? ==> r == c
    ensures FindIndex(c, id).Some? ==>
      r == c[FindIndex(c, id).value := Touch(c[FindIndex(c, id).value], now, image)]
  {
    match FindIndex(c, id)
    case None => c
    case Some(i) => c[i := Touch(c[i], now, image)]
  }
}

=== FILE: dicts.dfy ===
/** Python dictionaries: a map together with the order in which its keys were
    first inserted. Assigning to an existing key keeps its position; deleting a
    key drops it from the order; `values()` follows the order. */
module Dicts {

  import opened Wrappers

  datatype Dict<K, V> = Dict(keys: seq<K>, entries: map<K, V>)

  ghost predicate Distinct<K>(s: seq<K>) {
    forall i, j :: 0 <= i < j < |s| ==> s[i] != s[j]
  }

  /** The order lists every key of the map exactly once. */
  ghost predicate Valid<K, V>(d: Dict<K, V>) {
    && Distinct(d.keys)
    && (forall i :: 0 <= i < |d.keys| ==> d.keys[i] in d.entries)
    && (forall k :: k in d.entries ==> k in d.keys)
  }

  function Empty<K, V>(): (d: Dict<K, V>)
    ensures Valid(d) && d.entries == map[]
  {
    Dict([], map[])
  }

  function Get<K, V>(d: Dict<K, V>, k: K): Option<V> {
    if k in d.entries then Some(d.entries[k]) else None
  }

  /** `d[k] = v`: a new key goes to the end of the order, an existing one keeps its place. */
  function Put<K, V>(d: Dict<K, V>, k: K, v: V): (r: Dict<K, V>)
    requires Valid(d)
    ensures Valid(r)
    ensures r.entries == d.entries[k := v]
    ensures k in d.entries ==> r.keys == d.keys
    ensures k !in d.entries ==> r.keys == d.keys + [k]
  {
    if k in d.entries then Dict(d.keys, d.entries[k := v])
    else Dict(d.keys + [k], d.entries[k := v])
  }

  /** The order without `k`. */
  function Without<K(==)>(s: seq<K>, k: K): (r: seq<K>)
    ensures k !in s ==> r == s
  {
    if |s| == 0 then []
    else if s[0] == k then Without(s[1..], k)
    else [s[0]] + Without(s[1..], k)
  }

  /** Where `k` occurs exactly once, dropping it cuts it out at that position. */
  lemma {:induction false} WithoutAt<K>(s: seq<K>, k: K, i: nat)
    requires i < |s| && s[i] == k
    requires forall j :: 0 <= j < |s| && j != i ==> s[j] != k
    ensures Without(s, k) == s[..i] + s[i + 1..]
    decreases |s|
  {
    if i == 0 {
      assert k !in s[1..] by {
        forall j | 0 <= j < |s[1..]| ensures s[1..][j] != k {
          assert s[1..][j] == s[j + 1];
        }
      }
      assert s[..0] + s[1..] == s[1..];
    } else {
      assert forall j :: 0 <= j < |s[1..]| ==> s[1..][j] == s[j + 1];
      WithoutAt(s[1..], k, i - 1);
      ConsSlices(s, i);
    }
  }

  lemma ConsSlices<K>(s: seq<K>, i: nat)
    requires 0 < i < |s|
    ensures [s[0]] + (s[1..][..i - 1] + s[1..][i..]) == s[..i] + s[i + 1..]
  {
    assert s[1..][..i - 1] == s[1..i] && s[1..][i..] == s[i + 1..];
    assert [s[0]] + s[1..i] == s[..i];
  }

  /** In a well-formed dictionary, dropping a present key cuts it out of the order at its
      one position, and dropping an absent key changes nothing. */
  lemma WithoutSplits<K, V>(d: Dict<K, V>, k: K)
    requires Valid(d)
    ensures k in d.entries ==>
      exists i :: 0 <= i < |d.keys| && d.keys[i] == k && Without(d.keys, k) == d.keys[..i] + d.keys[i + 1..]
    ensures k !in d.entries ==> Dict(Without(d.keys, k), d.entries - {k}) == d
  {
    var s := d.keys;
    if k in d.entries {
      var i :| 0 <= i < |s| && s[i] == k;
      assert forall j :: 0 <= j < |s| && j != i ==> s[j] != k;
      WithoutAt(s, k, i);
    } else {
      assert k !in s;
      assert d.entries - {k} == d.entries;
    }
  }

  /** Cutting one key out of the order at its position, and out of the map, keeps the
      dictionary well formed. */
  lemma CutValid<K, V>(d: Dict<K, V>, i: nat)
    requires Valid(d) && i < |d.keys|
    ensures Valid(Dict(d.keys[..i] + d.keys[i + 1..], d.entries - {d.keys[i]}))
  {
    var s, k := d.keys, d.keys[i];
    var r := s[..i] + s[i + 1..];
    var m := d.entries - {k};
    assert forall a :: 0 <= a < |r| ==> r[a] == s[if a < i then a else a + 1];
    assert Distinct(r);
    assert forall a :: 0 <= a < |r| ==> r[a] in m;
    forall x | x in m ensures x in r {
      var j :| 0 <= j < |s| && s[j] == x;
      assert x == r[if j < i then j else j - 1];
    }
  }

  lemma RemovedValid<K, V>(d: Dict<K, V>, k: K)
    requires Valid(d)
    ensures Valid(Dict(Without(d.keys, k), d.entries - {k}))
  {
    var s := d.keys;
    if k in s {
      var i :| 0 <= i < |s| && s[i] == k;
      assert forall j :: 0 <= j < |s| && j != i ==> s[j] != k;
      WithoutAt(s, k, i);
      CutValid(d, i);
    } else {
      assert d.entries - {k} == d.entries;
    }
  }

  /** `del d[k]` guarded by `if k in d`: the key is cut out of the order, the other keys keep
      their relative order, and removing an absent key changes nothing. */
  function Remove<K, V>(d: Dict<K, V>, k: K): (r: Dict<K, V>)
    requires Valid(d)
    ensures Valid(r)
    ensures r.entries == d.entries - {k}
    ensures k in d.entries ==>
      exists i :: 0 <= i < |d.keys| && d.keys[i] == k && r.keys == d.keys[..i] + d.keys[i + 1..]
    ensures k !in d.entries ==> r == d
  {
    WithoutSplits(d, k);
    RemovedValid(d, k);
    Dict(Without(d.keys, k), d.entries - {k})
  }

  /** `list(d.values())`, in key order. */
  function Values<K, V>(d: Dict<K, V>): (r: seq<V>)
    requires Valid(d)
    ensures |r| == |d.keys|
    ensures forall i :: 0 <= i < |r| ==> r[i] == d.entries[d.keys[i]]
  {
    seq(|d.keys|, i requires 0 <= i < |d.keys| => d.entries[d.keys[i]])
  }

  /** A value is listed exactly when some key maps to it. */
  lemma ValuesContents<K, V>(d: Dict<K, V>, v: V)
    requires Valid(d)
    ensures v in Values(d) <==> exists k :: k in d.entries && d.entries[k] == v
  {
    var vs := Values(d);
    if v in vs {
      var i :| 0 <= i < |vs| && vs[i] == v;
      assert d.keys[i] in d.entries && d.entries[d.keys[i]] == v;
    }
    if exists k :: k in d.entries && d.entries[k] == v {
      var k :| k in d.entries && d.entries[k] == v;
      var i :| 0 <= i < |d.keys| && d.keys[i] == k;
      assert vs[i] == v;
    }
  }
}

=== FILE: employees.dfy ===
/** The `Employee` operations of auth/models.py over the `employees` collection:
    creating an account, password login, and creating or linking a Google
    account. The collection is a sequence in natural order; `find_one` and
    `update_one` act on the first matching document and `insert_one` appends.
    `datetime.utcnow()` is the parameter `now`. */
module Employees {

  import opened Wrappers
  import opened Strings
  import AuthUtils

  type Instant = int

  datatype EmployeeDoc = EmployeeDoc(
    employeeId: string,
    passwordHash: Option<string>,
    name: string,
    email: string,
    role: string,
    createdAt: Instant,
    lastLogin: Option<Instant>,
    googleId: Option<string>)

  type Store = seq<EmployeeDoc>

  /** The fields returned to callers; the hash is never among them. */
  datatype Profile = Profile(employeeId: string, name: string, email: string, role: string)

  function ProfileOf(d: EmployeeDoc): Profile {
    Profile(d.employeeId, d.name, d.email, d.role)
  }

  const DefaultRole: string := "employee"
  const GooglePrefix: string := "emp50"

  /** Position of the first document satisfying `p`. */
  function FirstIndex(s: Store, p: EmployeeDoc -> bool): (r: Option<nat>)
    ensures r.None? <==> forall i :: 0 <= i < |s| ==> !p(s[i])
    ensures r.Some? ==> r.value < |s| && p(s[r.value]) && forall i :: 0 <= i < r.value ==> !p(s[i])
  {
    if |s| == 0 then None
    else if p(s[0]) then Some(0)
    else match FirstIndex(s[1..], p)
      case None => None
      case Some(i) => Some(i + 1)
  }

  function ById(id: string): EmployeeDoc -> bool {
    (d: EmployeeDoc) => d.employeeId == id
  }

  function ByEmail(email: string): EmployeeDoc -> bool {
    (d: EmployeeDoc) => d.email == email
  }

  predicate IdTaken(s: Store, id: string) {
    exists i :: 0 <= i < |s| && s[i].employeeId == id
  }

  predicate EmailTaken(s: Store, email: string) {
    exists i :: 0 <= i < |s| && s[i].email == email
  }

  // ---------------------------------------------------------------------------
  // create_employee

  datatype Outcome = Outcome(success: bool, message: string)

  datatype Created = Created(outcome: Outcome, store: Store)

  /** `create_employee`: the four checks in source order, then one insert. */
  function CreateEmployee(s: Store, id: string, password: string, name: string, email: string,
                          role: string := DefaultRole, now: Instant, sha: string -> AuthUtils.Digest): (c: Created)
    ensures !c.outcome.success ==> c.store == s
    ensures !AuthUtils.IsValidEmployeeId(id) ==>
      c.outcome == Outcome(false, "Invalid employee ID format")
    ensures AuthUtils.IsValidEmployeeId(id) && !AuthUtils.ValidatePassword(password) ==>
      c.outcome == Outcome(false, "Password doesn't meet security requirements")
    ensures AuthUtils.IsValidEmployeeId(id) && AuthUtils.ValidatePassword(password) && IdTaken(s, id) ==>
      c.outcome == Outcome(false, "Employee ID already exists")
    ensures (AuthUtils.IsValidEmployeeId(id) && AuthUtils.ValidatePassword(password) && !IdTaken(s, id)
             && EmailTaken(s, email)) ==>
      c.outcome == Outcome(false, "Email already in use")
    ensures c.outcome.success <==>
      AuthUtils.IsValidEmployeeId(id) && AuthUtils.ValidatePassword(password) && !IdTaken(s, id) && !EmailTaken(s, email)
    ensures c.outcome.success ==>
      && c.outcome.message == "Employee created successfully"
      && c.store == s + [EmployeeDoc(id, Some(AuthUtils.GeneratePasswordHash(password, sha)),
                                     name, email, role, now, None, None)]
  {
    if !AuthUtils.IsValidEmployeeId(id) then Created(Outcome(false, "Invalid employee ID format"), s)
    else if !AuthUtils.ValidatePassword(password) then
      Created(Outcome(false, "Password doesn't meet security requirements"), s)
    else if FirstIndex(s, ById(id)).Some? then Created(Outcome(false, "Employee ID already exists"), s)
    else if FirstIndex(s, ByEmail(email)).Some? then Created(Outcome(false, "Email already in use"), s)
    else
      var doc := EmployeeDoc(id, Some(AuthUtils.GeneratePasswordHash(password, sha)), name, email, role, now, None, None);
      Created(Outcome(true, "Employee created successfully"), s + [doc])
  }

  /** Without a role the account is an ordinary employee. */
  lemma RoleDefaultsToEmployee(s: Store, id: string, password: string, name: string, email: string,
                               now: Instant, sha: string -> AuthUtils.Digest)
    ensures var c := CreateEmployee(s, id, password, name, email, now := now, sha := sha);
      c.outcome.success ==> |c.store| == |s| + 1 && c.store[|s|].role == "employee"
  {
  }

  /** The administrator account the server seeds at start-up is refused by the id check,
      so no such account is ever created. */
  lemma SeededAdminRejected(s: Store, now: Instant, sha: string -> AuthUtils.Digest)
    ensures CreateEmployee(s, "admin1001", "Admin@1001", "Administrator", "admin@example.com", "admin", now, sha)
      == Created(Outcome(false, "Invalid employee ID format"), s)
  {
    assert !StartsWith("admin1001", AuthUtils.EmployeePrefix) by {
      assert "admin1001"[..3] != "emp" by { assert "admin1001"[1] == 'd'; }
    }
  }

  // ---------------------------------------------------------------------------
  // authenticate

  datatype Login = Login(profile: Option<Profile>, store: Store)

  /** `authenticate`: the first document with the id, its hash checked, `last_login` set. */
  function Authenticate(s: Store, id: string, password: string, now: Instant,
                        sha: string -> AuthUtils.Digest): (l: Login)
    ensures !IdTaken(s, id) ==> l == Login(None, s)
    ensures l.profile.None? ==> l.store == s
    ensures l.profile.Some? ==>
      var i := FirstIndex(s, ById(id)).value;
      && s[i].passwordHash.Some?
      && AuthUtils.CheckPasswordHash(s[i].passwordHash.value, password, sha)
      && l.profile.value == ProfileOf(s[i])
      && l.store == s[i := s[i].(lastLogin := Some(now))]
    ensures IdTaken(s, id) ==>
      var d := s[FirstIndex(s, ById(id)).value];
      l.profile.Some? <==> d.passwordHash.Some? && AuthUtils.CheckPasswordHash(d.passwordHash.value, password, sha)
  {
    match FirstIndex(s, ById(id))
    case None => Login(None, s)
    case Some(i) =>
      var d := s[i];
      if d.passwordHash.Some? && AuthUtils.CheckPasswordHash(d.passwordHash.value, password, sha) then
        Login(Some(ProfileOf(d)), s[i := d.(lastLogin := Some(now))])
      else Login(None, s)
  }

  /** A freshly created account logs in with its password and gets its own profile back. */
  lemma CreatedEmployeeLogsIn(s: Store, id: string, password: string, name: string, email: string,
                              role: string, now: Instant, later: Instant, sha: string -> AuthUtils.Digest)
    requires CreateEmployee(s, id, password, name, email, role, now, sha).outcome.success
    ensures var s' := CreateEmployee(s, id, password, name, email, role, now, sha).store;
      Authenticate(s', id, password, later, sha).profile == Some(Profile(id, name, email, role))
  {
    var s' := CreateEmployee(s, id, password, name, email, role, now, sha).store;
    assert forall i :: 0 <= i < |s| ==> s'[i] == s[i];
    assert FirstIndex(s', ById(id)) == Some(|s|) by {
      var r := FirstIndex(s', ById(id));
      assert s'[|s|].employeeId == id;
      assert r.Some?;
    }
    AuthUtils.HashRoundTrip(password, password, sha);
  }

  /** An account without a password hash, as Google accounts are created, never logs in by password. */
  lemma NoHashNoLogin(s: Store, id: string, password: string, now: Instant, sha: string -> AuthUtils.Digest)
    requires IdTaken(s, id)
    requires s[FirstIndex(s, ById(id)).value].passwordHash.None?
    ensures Authenticate(s, id, password, now, sha) == Login(None, s)
  {
  }

  // ---------------------------------------------------------------------------
  // create_google_user

  /** How many documents have an id matching `^emp50`. */
  function Emp50Count(s: Store): (n: nat)
    ensures n <= |s|
  {
    if |s| == 0 then 0
    else Emp50Count(s[..|s| - 1]) + (if StartsWith(s[|s| - 1].employeeId, GooglePrefix) then 1 else 0)
  }

  /** `f"emp50{n:02}"`. */
  function GoogleId(n: nat): (id: string)
    ensures StartsWith(id, GooglePrefix)
  {
    var id := GooglePrefix + ZeroPad(NatToString(n), 2);
    assert id[..|GooglePrefix|] == GooglePrefix;
    id
  }

  /** The two-digit suffix reads back as the number. */
  lemma GoogleSuffixValue(n: nat)
    ensures AllDigits(ZeroPad(NatToString(n), 2))
    ensures DigitsValue(ZeroPad(NatToString(n), 2)) == n
  {
    var s := NatToString(n);
    DigitsValueOfNatToString(n);
    if |s| < 2 {
      var zeros := seq(2 - |s|, _ => '0');
      assert ZeroPad(s, 2) == zeros + s;
      assert zeros == "0";
      assert "0"[..0] == "";
      DigitsValueAppend(zeros, s);
    }
  }

  lemma GoogleIdInjective(a: nat, b: nat)
    ensures GoogleId(a) == GoogleId(b) <==> a == b
  {
    if GoogleId(a) == GoogleId(b) {
      assert GoogleId(a)[5..] == ZeroPad(NatToString(a), 2);
      assert GoogleId(b)[5..] == ZeroPad(NatToString(b), 2);
      GoogleSuffixValue(a);
      GoogleSuffixValue(b);
    }
  }

  datatype GoogleResult = Existing(doc: EmployeeDoc) | New(profile: Profile)

  datatype Linked = Linked(result: GoogleResult, store: Store)

  /** `create_google_user`: link the account with that email, or add one with the next emp50 id. */
  function CreateGoogleUser(s: Store, email: string, name: string, googleId: string, now: Instant): (g: Linked)
    ensures EmailTaken(s, email) <==> g.result.Existing?
    ensures g.result.Existing? ==>
      var i := FirstIndex(s, ByEmail(email)).value;
      && g.result.doc == s[i]
      && g.store == s[i := s[i].(googleId := Some(googleId), lastLogin := Some(now))]
    ensures g.result.New? ==>
      var id := GoogleId(Emp50Count(s) + 1);
      && g.result.profile == Profile(id, name, email, DefaultRole)
      && g.store == s + [EmployeeDoc(id, None, name, email, DefaultRole, now, Some(now), Some(googleId))]
  {
    match FirstIndex(s, ByEmail(email))
    case Some(i) =>
      Linked(Existing(s[i]), s[i := s[i].(googleId := Some(googleId), lastLogin := Some(now))])
    case None =>
      var id := GoogleId(Emp50Count(s) + 1);
      Linked(New(Profile(id, name, email, DefaultRole)),
             s + [EmployeeDoc(id, None, name, email, DefaultRole, now, Some(now), Some(googleId))])
  }

  // ---------------------------------------------------------------------------
  // Google ids stay unique

  /** Every emp50 id in the store is one of the ids handed out so far. */
  ghost predicate GoogleIdsIssued(s: Store) {
    forall i :: 0 <= i < |s| && StartsWith(s[i].employeeId, GooglePrefix) ==>
      exists k :: 1 <= k <= Emp50Count(s) && s[i].employeeId == GoogleId(k)
  }

  lemma Emp50CountAppend(s: Store, d: EmployeeDoc)
    ensures Emp50Count(s + [d]) == Emp50Count(s) + (if StartsWith(d.employeeId, GooglePrefix) then 1 else 0)
  {
    assert (s + [d])[..|s|] == s;
  }

  lemma {:induction false} Emp50CountUpdate(s: Store, i: nat, d: EmployeeDoc)
    requires i < |s| && d.employeeId == s[i].employeeId
    ensures Emp50Count(s[i := d]) == Emp50Count(s)
  {
    var s' := s[i := d];
    if i < |s| - 1 {
      assert s'[..|s'| - 1] == s[..|s| - 1][i := d];
      Emp50CountUpdate(s[..|s| - 1], i, d);
    } else {
      assert s'[..|s'| - 1] == s[..|s| - 1];
    }
  }

  /** The id a new Google account gets is not already in the store. */
  lemma NextGoogleIdFresh(s: Store)
    requires GoogleIdsIssued(s)
    ensures !IdTaken(s, GoogleId(Emp50Count(s) + 1))
  {
    var next := GoogleId(Emp50Count(s) + 1);
    if IdTaken(s, next) {
      var i :| 0 <= i < |s| && s[i].employeeId == next;
      var k :| 1 <= k <= Emp50Count(s) && s[i].employeeId == GoogleId(k);
      GoogleIdInjective(k, Emp50Count(s) + 1);
    }
  }

  /** Appending a document keeps the invariant when an emp50 id it carries is the next one. */
  lemma IssuedAppend(s: Store, d: EmployeeDoc)
    requires GoogleIdsIssued(s)
    requires StartsWith(d.employeeId, GooglePrefix) ==> d.employeeId == GoogleId(Emp50Count(s) + 1)
    ensures GoogleIdsIssued(s + [d])
  {
    var s' := s + [d];
    Emp50CountAppend(s, d);
    forall i | 0 <= i < |s'| && StartsWith(s'[i].employeeId, GooglePrefix)
      ensures exists k :: 1 <= k <= Emp50Count(s') && s'[i].employeeId == GoogleId(k)
    {
      if i < |s| {
        assert s'[i] == s[i];
        var k :| 1 <= k <= Emp50Count(s) && s[i].employeeId == GoogleId(k);
      } else {
        assert s'[i] == d;
        assert d.employeeId == GoogleId(Emp50Count(s) + 1);
      }
    }
  }

  /** Rewriting one document without changing its id keeps the invariant. */
  lemma IssuedUpdate(s: Store, i: nat, d: EmployeeDoc)
    requires GoogleIdsIssued(s)
    requires i < |s| && d.employeeId == s[i].employeeId
    ensures GoogleIdsIssued(s[i := d])
  {
    Emp50CountUpdate(s, i, d);
    assert forall j :: 0 <= j < |s| ==> s[i := d][j].employeeId == s[j].employeeId;
  }

  /** Account creation by either route and password login all keep the emp50 ids issued in
      sequence, so each new Google account gets an id no other account has. */
  lemma CreateEmployeeKeepsIssued(s: Store, id: string, password: string, name: string, email: string,
                                  role: string, now: Instant, sha: string -> AuthUtils.Digest)
    requires GoogleIdsIssued(s)
    ensures GoogleIdsIssued(CreateEmployee(s, id, password, name, email, role, now, sha).store)
  {
    var c := CreateEmployee(s, id, password, name, email, role, now, sha);
    if c.outcome.success {
      if StartsWith(id, GooglePrefix) {
        AuthUtils.NoValidIdStartsWithEmp50(id);
      }
      IssuedAppend(s, EmployeeDoc(id, Some(AuthUtils.GeneratePasswordHash(password, sha)),
                                  name, email, role, now, None, None));
    }
  }

  lemma CreateGoogleUserKeepsIssued(s: Store, email: string, name: string, googleId: string, now: Instant)
    requires GoogleIdsIssued(s)
    ensures GoogleIdsIssued(CreateGoogleUser(s, email, name, googleId, now).store)
    ensures CreateGoogleUser(s, email, name, googleId, now).result.New? ==>
      !IdTaken(s, CreateGoogleUser(s, email, name, googleId, now).result.profile.employeeId)
  {
    match FirstIndex(s, ByEmail(email)) {
      case Some(i) =>
        IssuedUpdate(s, i, s[i].(googleId := Some(googleId), lastLogin := Some(now)));
      case None =>
        var id := GoogleId(Emp50Count(s) + 1);
        IssuedAppend(s, EmployeeDoc(id, None, name, email, DefaultRole, now, Some(now), Some(googleId)));
        NextGoogleIdFresh(s);
    }
  }

  lemma AuthenticateKeepsIssued(s: Store, id: string, password: string, now: Instant,
                                sha: string -> AuthUtils.Digest)
    requires GoogleIdsIssued(s)
    ensures GoogleIdsIssued(Authenticate(s, id, password, now, sha).store)
  {
    var l := Authenticate(s, id, password, now, sha);
    if l.profile.Some? {
      var i := FirstIndex(s, ById(id)).value;
      IssuedUpdate(s, i, s[i].(lastLogin := Some(now)));
    }
  }

  /** Linking an existing account adds no document. */
  lemma LinkingAddsNothing(s: Store, email: string, name: string, googleId: string, now: Instant)
    requires EmailTaken(s, email)
    ensures |CreateGoogleUser(s, email, name, googleId, now).store| == |s|
  {
  }
}

=== FILE: recognition.dfy ===
/** The camera loop of simple_face_recognition.py, one detected face at a time:
    loading the known faces from the store, nearest-match selection, the
    per-customer cooldown, the API-failure breaker, and registering or updating
    the customer in the store.

    Face locations, encodings and the Euclidean distance are not modelled: an
    encoding is a sequence of reals and `distance` is a parameter. Everything
    the loop reads from the outside world for one face (the clocks, the result
    of the API call, whether the insert succeeded, the generated image id) is
    collected in a `Face` record. Camera time is `time.time()` in seconds. */
module Recognition {

  import opened Wrappers
  import opened Strings
  import Customers

  type CustomerId = string
  type Encoding = seq<real>

  /** `RECOGNITION_THRESHOLD`: a match needs a distance strictly below it. */
  const RecognitionThreshold: real := 0.6
  /** `cooldown_time`, in seconds. */
  const CooldownTime: real := 10.0
  /** `max_api_failures`. */
  const MaxApiFailures: nat := 5
  /** The failure count is cleared when more than this many seconds passed since the last clearing. */
  const ApiResetInterval: real := 30.0
  const CaptureDirectory: string := "auto_captured/"

  // ---------------------------------------------------------------------------
  // Known faces

  /** The two parallel lists the loop matches against. */
  datatype Known = Known(encodings: seq<Encoding>, ids: seq<CustomerId>)

  /** `get_all_customer_embeddings`: the customers with a non-empty embedding, in store order. */
  function KnownFaces(store: Customers.Collection): (k: Known)
    ensures |k.encodings| == |k.ids|
  {
    if |store| == 0 then Known([], [])
    else
      var k := KnownFaces(store[..|store| - 1]);
      var d := store[|store| - 1];
      if |d.faceEmbedding| > 0 then Known(k.encodings + [d.faceEmbedding], k.ids + [d.customerId])
      else k
  }

  /** Loading distributes over concatenation: the lists follow the store's order. */
  lemma {:induction false} KnownFacesAppend(a: Customers.Collection, b: Customers.Collection)
    ensures KnownFaces(a + b).encodings == KnownFaces(a).encodings + KnownFaces(b).encodings
    ensures KnownFaces(a + b).ids == KnownFaces(a).ids + KnownFaces(b).ids
  {
    if |b| == 0 {
      assert a + b == a;
    } else {
      var b' := b[..|b| - 1];
      assert (a + b)[..|a + b| - 1] == a + b';
      assert (a + b)[|a + b| - 1] == b[|b| - 1];
      KnownFacesAppend(a, b');
    }
  }

  /** A face is known exactly when some customer in the store has that id and a non-empty
      embedding; its encoding is that customer's embedding. */
  lemma {:induction false} KnownFacesContents(store: Customers.Collection, id: CustomerId)
    ensures id in KnownFaces(store).ids <==>
      exists j :: 0 <= j < |store| && store[j].customerId == id && |store[j].faceEmbedding| > 0
    ensures forall i :: 0 <= i < |KnownFaces(store).ids| ==>
      exists j :: 0 <= j < |store| && store[j].customerId == KnownFaces(store).ids[i]
        && store[j].faceEmbedding == KnownFaces(store).encodings[i]
  {
    if |store| > 0 {
      var init := store[..|store| - 1];
      KnownFacesContents(init, id);
      assert forall j :: 0 <= j < |init| ==> store[j] == init[j];
    }
  }

  /** A store write that keeps every id and embedding in place keeps the known lists. */
  lemma {:induction false} KnownFacesTouched(store: Customers.Collection, i: nat, d: Customers.CustomerDoc)
    requires i < |store|
    requires d.customerId == store[i].customerId && d.faceEmbedding == store[i].faceEmbedding
    ensures KnownFaces(store[i := d]) == KnownFaces(store)
  {
    var s' := store[i := d];
    if i < |store| - 1 {
      KnownFacesTouched(store[..|store| - 1], i, d);
      assert s'[..|s'| - 1] == store[..|store| - 1][i := d];
    } else {
      assert s'[..|s'| - 1] == store[..|store| - 1];
    }
  }

  // ---------------------------------------------------------------------------
  // Nearest match

  /** `np.argmin`: a position of the least distance, the first one on a tie. */
  function ArgMin(d: seq<real>): (r: nat)
    requires |d| > 0
    ensures r < |d|
    ensures forall j :: 0 <= j < |d| ==> d[r] <= d[j]
    ensures forall j :: 0 <= j < r ==> d[j] > d[r]
  {
    if |d| == 1 then 0
    else
      var k := ArgMin(d[1..]) + 1;
      if d[0] <= d[k] then 0 else k
  }

  /** `face_distance(known_face_encodings, face_encoding)`. */
  function Distances(encodings: seq<Encoding>, e: Encoding, distance: (Encoding, Encoding) -> real): (r: seq<real>)
    ensures |r| == |encodings|
    ensures forall i :: 0 <= i < |r| ==> r[i] == distance(encodings[i], e)
  {
    seq(|encodings|, i requires 0 <= i < |encodings| => distance(encodings[i], e))
  }

  /** `best_match_index`: None without known encodings. */
  function BestMatch(d: seq<real>): (r: Option<nat>)
    ensures r.None? <==> |d| == 0
    ensures r.Some? ==> r.value < |d|
  {
    if |d| == 0 then None else Some(ArgMin(d))
  }

  /** The index of the matched known face, when the nearest one is strictly closer than the threshold. */
  function Match(d: seq<real>): (r: Option<nat>)
    ensures r.Some? ==> r.value < |d| && d[r.value] < RecognitionThreshold
  {
    match BestMatch(d)
    case None => None
    case Some(i) => if d[i] < RecognitionThreshold then Some(i) else None
  }

  /** A face matches exactly when some known face is strictly closer than 0.6, and then it is
      the first of the nearest ones. */
  lemma MatchIffSomeClose(d: seq<real>)
    ensures Match(d).Some? <==> exists i :: 0 <= i < |d| && d[i] < RecognitionThreshold
    ensures Match(d).Some? ==>
      (forall j :: 0 <= j < |d| ==> d[Match(d).value] <= d[j])
      && (forall j :: 0 <= j < Match(d).value ==> d[j] > d[Match(d).value])
  {
    if exists i :: 0 <= i < |d| && d[i] < RecognitionThreshold {
      var i :| 0 <= i < |d| && d[i] < RecognitionThreshold;
      assert d[ArgMin(d)] <= d[i];
    }
  }

  /** A distance of exactly 0.6 to every known face is not a match. */
  lemma ThresholdIsStrict(n: nat)
    ensures Match(seq(n, _ => RecognitionThreshold)).None?
  {
  }

  // ---------------------------------------------------------------------------
  // Failure breaker

  datatype Breaker = Breaker(failures: nat, lastReset: real)

  /** The periodic reset done for every face before any decision: more than 30 s after the
      last reset the count is cleared, otherwise the breaker is left exactly as it was, so a
      pause at 5 failures lasts until the next reset. */
  function Tick(b: Breaker, now: real): (r: Breaker)
    ensures now - r.lastReset <= ApiResetInterval
    ensures r.failures <= b.failures && r.lastReset >= b.lastReset
    ensures r.lastReset == b.lastReset || (r.lastReset == now && r.failures == 0)
    ensures now - b.lastReset > ApiResetInterval ==> r == Breaker(0, now)
    ensures now - b.lastReset <= ApiResetInterval ==> r == b
  {
    if now - b.lastReset > ApiResetInterval then Breaker(0, now) else b
  }

  /** Whether the API is called at all. */
  predicate Open(b: Breaker) {
    b.failures < MaxApiFailures
  }

  /** One guarded call: skipped at 5 failures, otherwise a failure counts and a success clears. */
  function Attempt(b: Breaker, ok: bool): (r: Breaker)
    ensures !Open(b) ==> r == b
    ensures Open(b) && ok ==> r == b.(failures := 0)
    ensures Open(b) && !ok ==> r == b.(failures := b.failures + 1)
    ensures b.failures <= MaxApiFailures ==> r.failures <= MaxApiFailures
    ensures r.lastReset == b.lastReset
  {
    if !Open(b) then b
    else if ok then b.(failures := 0)
    else b.(failures := b.failures + 1)
  }

  /** Five failed calls in a row pause the API until the next reset. */
  lemma FiveFailuresPause(b: Breaker)
    requires b.failures == 0
    ensures var r := Attempt(Attempt(Attempt(Attempt(Attempt(b, false), false), false), false), false);
      r.failures == MaxApiFailures && !Open(r) && Attempt(r, true) == r
  {
  }

  // ---------------------------------------------------------------------------
  // Identifiers and image paths

  /** The local calendar time `datetime.now()` formats. */
  datatype DateTime = DateTime(year: nat, month: nat, day: nat, hour: nat, minute: nat, second: nat)

  predicate ValidDateTime(t: DateTime) {
    1000 <= t.year <= 9999 && 1 <= t.month <= 12 && 1 <= t.day <= 31
    && t.hour < 24 && t.minute < 60 && t.second < 60
  }

  /** `strftime('%Y%m%d%H%M%S')`. */
  function Stamp(t: DateTime): (s: string)
    ensures ValidDateTime(t) ==> |s| == 14 && AllDigits(s)
  {
    var s := ZeroPad(NatToString(t.year), 4) + ZeroPad(NatToString(t.month), 2) + ZeroPad(NatToString(t.day), 2)
      + ZeroPad(NatToString(t.hour), 2) + ZeroPad(NatToString(t.minute), 2) + ZeroPad(NatToString(t.second), 2);
    if ValidDateTime(t) then
      StampDigits(t);
      s
    else s
  }

  lemma StampDigits(t: DateTime)
    requires ValidDateTime(t)
    ensures var s := ZeroPad(NatToString(t.year), 4) + ZeroPad(NatToString(t.month), 2) + ZeroPad(NatToString(t.day), 2)
      + ZeroPad(NatToString(t.hour), 2) + ZeroPad(NatToString(t.minute), 2) + ZeroPad(NatToString(t.second), 2);
      |s| == 14 && AllDigits(s)
  {
    assert Pow10(2) == 100 && Pow10(4) == 10000;
    PadNatDigits(t.year, 4);
    PadNatDigits(t.month, 2);
    PadNatDigits(t.day, 2);
    PadNatDigits(t.hour, 2);
    PadNatDigits(t.minute, 2);
    PadNatDigits(t.second, 2);
    AllDigitsConcat(ZeroPad(NatToString(t.year), 4), ZeroPad(NatToString(t.month), 2));
    var a := ZeroPad(NatToString(t.year), 4) + ZeroPad(NatToString(t.month), 2);
    AllDigitsConcat(a, ZeroPad(NatToString(t.day), 2));
    var b := a + ZeroPad(NatToString(t.day), 2);
    AllDigitsConcat(b, ZeroPad(NatToString(t.hour), 2));
    var c := b + ZeroPad(NatToString(t.hour), 2);
    AllDigitsConcat(c, ZeroPad(NatToString(t.minute), 2));
    var d := c + ZeroPad(NatToString(t.minute), 2);
    AllDigitsConcat(d, ZeroPad(NatToString(t.second), 2));
  }

  /** `int(x)` on a float: truncation toward zero. */
  function Trunc(x: real): (i: int)
    ensures x >= 0.0 ==> i as real <= x < i as real + 1.0
    ensures x < 0.0 ==> i as real - 1.0 < x <= i as real
  {
    if x >= 0.0 then x.Floor else -((-x).Floor)
  }

  /** `f"C{int(time.time())}"`. */
  function NewCustomerId(t: real): (id: CustomerId)
    ensures |id| >= 2 && id[0] == 'C'
  {
    "C" + IntToString(Trunc(t))
  }

  /** The digits after the "C" read back as the whole seconds of the registration instant. */
  lemma NewCustomerIdSeconds(t: real)
    requires t >= 0.0
    ensures AllDigits(NewCustomerId(t)[1..])
    ensures ParseInt(NewCustomerId(t)[1..]) == Some(t.Floor)
  {
    var id := NewCustomerId(t);
    assert id[1..] == NatToString(t.Floor);
    ParseNatToString(t.Floor);
  }

  /** The name of the captured image file in the capture directory. */
  function ImageFileName(id: CustomerId, t: DateTime): (name: string)
    ensures StartsWith(name, id) && EndsWith(name, ".jpg")
    ensures ValidDateTime(t) ==>
      |name| == |id| + 19 && name[|id|] == '_' && AllDigits(name[|id| + 1..|id| + 15])
  {
    var name := id + "_" + Stamp(t) + ".jpg";
    assert name[|id| + 1..|id| + 1 + |Stamp(t)|] == Stamp(t);
    assert name[..|id|] == id;
    assert name[|name| - 4..] == ".jpg";
    name
  }

  /** `auto_captured/<id>_<YYYYmmddHHMMSS>.jpg`. */
  function ImagePath(id: CustomerId, t: DateTime): (p: string)
    ensures StartsWith(p, CaptureDirectory) && p[|CaptureDirectory|..] == ImageFileName(id, t)
  {
    var p := CaptureDirectory + ImageFileName(id, t);
    assert p[..|CaptureDirectory|] == CaptureDirectory;
    p
  }

  // ---------------------------------------------------------------------------
  // One face

  /** What the loop reads from the world while handling one face. */
  datatype Face = Face(
    encoding: Encoding,
    /** `current_time = time.time()`. */
    now: real,
    /** `time.time()` inside `register_new_customer`. */
    registerTime: real,
    /** `datetime.now()` as stored, and as formatted into the image path. */
    wallClock: Customers.Instant,
    calendar: DateTime,
    /** `str(uuid.uuid4())` for the stored image record. */
    imageId: string,
    /** What `send_customer_id_to_api` returns, if called. */
    apiOk: bool,
    /** Whether `insert_one` in `register_new_customer` succeeds. */
    insertOk: bool)

  datatype Camera = Camera(
    known: Known,
    lastDetection: map<CustomerId, real>,
    breaker: Breaker)

  ghost predicate ValidCamera(c: Camera) {
    |c.known.encodings| == |c.known.ids| && c.breaker.failures <= MaxApiFailures
  }

  /** The state the loop starts from, after loading the known faces. */
  function Start(store: Customers.Collection, now: real): (c: Camera)
    ensures ValidCamera(c) && c.known == KnownFaces(store)
    ensures c.lastDetection == map[] && c.breaker == Breaker(0, now)
  {
    Camera(KnownFaces(store), map[], Breaker(0, now))
  }

  datatype Outcome = Admitted(id: CustomerId) | Suppressed(id: CustomerId)
                   | Registered(id: CustomerId) | RegistrationFailed

  datatype StepResult = StepResult(camera: Camera, store: Customers.Collection, sent: seq<CustomerId>, outcome: Outcome)

  /** Admitted when never seen, or seen more than ten seconds ago. */
  predicate Admits(last: map<CustomerId, real>, id: CustomerId, now: real) {
    id !in last || now - last[id] > CooldownTime
  }

  /** A guarded API call for `id`: the ids actually sent and the breaker afterwards. At most
      one call is made, for `id`, and exactly when the breaker is open. */
  function Send(b: Breaker, id: CustomerId, ok: bool): (r: (seq<CustomerId>, Breaker))
    ensures |r.0| <= 1 && (r.0 == [] <==> !Open(b))
    ensures forall i :: 0 <= i < |r.0| ==> r.0[i] == id
    ensures b.failures <= MaxApiFailures ==> r.1.failures <= MaxApiFailures
    ensures r.1 == Attempt(b, ok)
  {
    (if Open(b) then [id] else [], Attempt(b, ok))
  }

  /** `update_customer`: a visit with the new image on the first document with the id. */
  function UpdateCustomer(store: Customers.Collection, id: CustomerId, f: Face): Customers.Collection {
    Customers.RecordVisit(store, id, f.wallClock,
      Some(Customers.FaceImage(f.imageId, f.wallClock, ImagePath(id, f.calendar))))
  }

  /** The document `register_new_customer` inserts. */
  function NewCustomer(id: CustomerId, f: Face): Customers.CustomerDoc {
    Customers.CustomerDoc(id, f.encoding, f.wallClock, f.wallClock, Some(1),
      [Customers.FaceImage(f.imageId, f.wallClock, ImagePath(id, f.calendar))])
  }

  /** The body of the per-face loop. */
  function Step(c: Camera, store: Customers.Collection, f: Face, distance: (Encoding, Encoding) -> real): (r: StepResult)
    requires ValidCamera(c)
    ensures ValidCamera(r.camera)
  {
    var d := Distances(c.known.encodings, f.encoding, distance);
    var b := Tick(c.breaker, f.now);
    match Match(d)
    case Some(i) =>
      var id := c.known.ids[i];
      if Admits(c.lastDetection, id, f.now) then
        var (sent, b') := Send(b, id, f.apiOk);
        StepResult(Camera(c.known, c.lastDetection[id := f.now], b'),
                   UpdateCustomer(store, id, f), sent, Admitted(id))
      else
        StepResult(c.(breaker := b), store, [], Suppressed(id))
    case None =>
      if f.insertOk then
        var id := NewCustomerId(f.registerTime);
        var (sent, b') := Send(b, id, f.apiOk);
        var known := Known(c.known.encodings + [f.encoding], c.known.ids + [id]);
        StepResult(Camera(known, c.lastDetection[id := f.now], b'), store + [NewCustomer(id, f)], sent, Registered(id))
      else
        StepResult(c.(breaker := b), store, [], RegistrationFailed)
  }

  /** The faces of one processed frame, in order. */
  function StepAll(c: Camera, store: Customers.Collection, faces: seq<Face>,
                   distance: (Encoding, Encoding) -> real): (r: (Camera, Customers.Collection, seq<CustomerId>))
    requires ValidCamera(c)
    ensures ValidCamera(r.0)
    decreases |faces|
  {
    if |faces| == 0 then (c, store, [])
    else
      var s := Step(c, store, faces[0], distance);
      var rest := StepAll(s.camera, s.store, faces[1..], distance);
      (rest.0, rest.1, s.sent + rest.2)
  }

  // ---------------------------------------------------------------------------
  // Properties of one face

  /** A face is recognised as a known customer exactly when some known encoding is strictly
      closer than the threshold; the customer is the one at the first nearest position. */
  lemma RecognisedIff(c: Camera, store: Customers.Collection, f: Face, distance: (Encoding, Encoding) -> real)
    requires ValidCamera(c)
    ensures var r := Step(c, store, f, distance);
      (r.outcome.Admitted? || r.outcome.Suppressed?) <==>
        exists i :: 0 <= i < |c.known.encodings| && distance(c.known.encodings[i], f.encoding) < RecognitionThreshold
    ensures var r := Step(c, store, f, distance);
      var d := Distances(c.known.encodings, f.encoding, distance);
      (r.outcome.Admitted? || r.outcome.Suppressed?) ==>
        r.outcome.id == c.known.ids[ArgMin(d)]
  {
    var d := Distances(c.known.encodings, f.encoding, distance);
    MatchIffSomeClose(d);
    if exists i :: 0 <= i < |c.known.encodings| && distance(c.known.encodings[i], f.encoding) < RecognitionThreshold {
      var i :| 0 <= i < |c.known.encodings| && distance(c.known.encodings[i], f.encoding) < RecognitionThreshold;
      assert d[i] < RecognitionThreshold;
    }
  }

  /** A recognised customer is let through exactly when not seen in the last ten seconds; being
      let through records the instant, updates the store and calls the API while the breaker
      is open. A suppressed face changes nothing but the breaker's reset. */
  lemma CooldownGate(c: Camera, store: Customers.Collection, f: Face, distance: (Encoding, Encoding) -> real)
    requires ValidCamera(c)
    ensures var r := Step(c, store, f, distance);
      r.outcome.Admitted? ==>
        && Admits(c.lastDetection, r.outcome.id, f.now)
        && r.camera.lastDetection == c.lastDetection[r.outcome.id := f.now]
        && r.camera.known == c.known
        && r.store == UpdateCustomer(store, r.outcome.id, f)
        && r.sent == (if Open(Tick(c.breaker, f.now)) then [r.outcome.id] else [])
        && r.camera.breaker == Attempt(Tick(c.breaker, f.now), f.apiOk)
    ensures var r := Step(c, store, f, distance);
      r.outcome.Suppressed? ==>
        && !Admits(c.lastDetection, r.outcome.id, f.now)
        && r.camera == c.(breaker := Tick(c.breaker, f.now))
        && r.store == store && r.sent == []
    ensures var r := Step(c, store, f, distance);
      var m := Match(Distances(c.known.encodings, f.encoding, distance));
      m.Some? ==> (r.outcome.Admitted? <==> Admits(c.lastDetection, c.known.ids[m.value], f.now))
  {
  }

  /** An unknown face is registered when the insert succeeds: its encoding and new id are appended
      to the parallel lists and its instant recorded; a failed insert changes nothing but the
      breaker's reset. */
  lemma RegistrationEffect(c: Camera, store: Customers.Collection, f: Face, distance: (Encoding, Encoding) -> real)
    requires ValidCamera(c)
    ensures var r := Step(c, store, f, distance);
      r.outcome.Registered? ==>
        && r.outcome.id == NewCustomerId(f.registerTime)
        && r.camera.known.encodings == c.known.encodings + [f.encoding]
        && r.camera.known.ids == c.known.ids + [r.outcome.id]
        && r.camera.lastDetection == c.lastDetection[r.outcome.id := f.now]
        && r.store == store + [NewCustomer(r.outcome.id, f)]
        && r.sent == (if Open(Tick(c.breaker, f.now)) then [r.outcome.id] else [])
        && r.camera.breaker == Attempt(Tick(c.breaker, f.now), f.apiOk)
    ensures var r := Step(c, store, f, distance);
      r.outcome.RegistrationFailed? ==>
        r.camera == c.(breaker := Tick(c.breaker, f.now)) && r.store == store && r.sent == []
    ensures var r := Step(c, store, f, distance);
      (r.outcome.Registered? || r.outcome.RegistrationFailed?) <==> Match(Distances(c.known.encodings, f.encoding, distance)).None?
    ensures var r := Step(c, store, f, distance);
      r.outcome.Registered? <==> Match(Distances(c.known.encodings, f.encoding, distance)).None? && f.insertOk
  {
  }

  /** The failure count is cleared before the decision whenever more than 30 s passed since the
      last clearing; then at most one call is made, so afterwards the count is 0 or 1. */
  lemma BreakerResets(c: Camera, store: Customers.Collection, f: Face, distance: (Encoding, Encoding) -> real)
    requires ValidCamera(c)
    requires f.now - c.breaker.lastReset > ApiResetInterval
    ensures var r := Step(c, store, f, distance);
      r.camera.breaker.lastReset == f.now && r.camera.breaker.failures <= 1
      && (r.camera.breaker.failures == 1 <==> |r.sent| == 1 && !f.apiOk)
  {
  }

  /** Two sightings of the same known customer less than ten seconds apart: the second is
      suppressed and makes no call, whatever the breaker says. */
  lemma Debounce(c: Camera, store: Customers.Collection, f1: Face, f2: Face, distance: (Encoding, Encoding) -> real)
    requires ValidCamera(c)
    requires var m := Match(Distances(c.known.encodings, f1.encoding, distance));
      m.Some? && Admits(c.lastDetection, c.known.ids[m.value], f1.now)
    requires f1.now <= f2.now <= f1.now + CooldownTime
    requires f2.encoding == f1.encoding
    ensures var r1 := Step(c, store, f1, distance);
      var r2 := Step(r1.camera, r1.store, f2, distance);
      r2.outcome == Suppressed(r1.outcome.id) && r2.sent == [] && r2.store == r1.store
  {
    var r1 := Step(c, store, f1, distance);
    assert r1.outcome.Admitted?;
    assert r1.camera.known == c.known;
  }

  /** The camera's lists mirror the store's customers with embeddings, and every step keeps
      them so as long as the new encodings are non-empty. */
  ghost predicate InSync(c: Camera, store: Customers.Collection) {
    c.known == KnownFaces(store)
  }

  lemma StepKeepsSync(c: Camera, store: Customers.Collection, f: Face, distance: (Encoding, Encoding) -> real)
    requires ValidCamera(c) && InSync(c, store)
    requires |f.encoding| > 0
    ensures var r := Step(c, store, f, distance);
      InSync(r.camera, r.store)
  {
    var r := Step(c, store, f, distance);
    match r.outcome {
      case Admitted(id) =>
        var found := Customers.FindIndex(store, id);
        if found.Some? {
          var i := found.value;
          var img := Customers.FaceImage(f.imageId, f.wallClock, ImagePath(id, f.calendar));
          KnownFacesTouched(store, i, Customers.Touch(store[i], f.wallClock, Some(img)));
        }
      case Registered(id) =>
        var doc := NewCustomer(id, f);
        assert (store + [doc])[..|store|] == store;
      case _ =>
    }
  }
}

=== FILE: server.dfy ===
/** The detection state of the web server (app.py): the cooldown map and its
    cleanup, `/api/customer_detected` with the background processing run as a
    synchronous step, `/api/update_bill`, and `/api/test_detection`.

    The background thread's clock, the `auto_captured` directory listing and the
    random draw used by the prediction are parameters. `get_model()` is the
    `engine` field: None when the lazy loader failed. */
module Server {

  import opened Wrappers
  import opened Strings
  import Dicts
  import Billing
  import Customers
  import LatestCache
  import Recognition

  type CustomerId = string

  /** `datetime.now()` in microseconds. */
  type Instant = int

  const MicrosPerSecond: int := 1_000_000
  /** `DETECTION_COOLDOWN`, in seconds. */
  const DetectionCooldown: int := 120
  const ImageExtensions: seq<string> := [".jpg", ".jpeg", ".png"]
  const StaticImagesPrefix: string := "/static/images/"
  /** Defaults of `/api/test_detection`. */
  const TestCustomerId: string := "C1001"
  const TestImageUrl: string := "/static/images/test_image.jpg"
  const TestPredictedBill: real := 50.0

  type Cooldowns = map<CustomerId, Instant>

  datatype ServerState = ServerState(
    cooldowns: Cooldowns,
    latest: LatestCache.Cache,
    customers: Customers.Collection,
    engine: Option<Billing.Engine>)

  ghost predicate ValidState(s: ServerState) {
    Dicts.Valid(s.latest) && (s.engine.Some? ==> Billing.ValidEngine(s.engine.value))
  }

  /** The value of `customer_id` in a JSON body; other JSON types are not modelled. */
  datatype IdField = IdMissing | IdNull | Id(id: string)

  /** The value of `actual_bill` in a JSON body. */
  datatype BillField = BillMissing | BillNull | BillBool(b: bool) | BillNumber(n: real) | BillText(text: string)

  /** A JSON object body: the two fields the endpoints read and whether any other key is present. */
  datatype Payload = Payload(customerId: IdField, actualBill: BillField, otherKeys: bool)

  datatype Reply = Reply(status: int, message: string, removed: bool)

  /** Python truthiness of the `customer_id` value. */
  function TruthyId(f: IdField): Option<CustomerId> {
    match f
    case Id(id) => if id != "" then Some(id) else None
    case _ => None
  }

  // ---------------------------------------------------------------------------
  // Cooldowns

  /** An entry is stale when more than `DETECTION_COOLDOWN` seconds old. */
  predicate Expired(now: Instant, t: Instant) {
    now - t > DetectionCooldown * MicrosPerSecond
  }

  /** `cleanup_cooldowns`: drops exactly the stale entries and keeps the others untouched. */
  function CleanupCooldowns(c: Cooldowns, now: Instant): (r: Cooldowns)
    ensures forall k :: k in r <==> k in c && now - c[k] <= DetectionCooldown * MicrosPerSecond
    ensures forall k :: k in r ==> r[k] == c[k]
  {
    map k | k in c && !Expired(now, c[k]) :: c[k]
  }

  /** Running the cleanup twice at the same instant changes nothing more. */
  lemma CleanupIdempotent(c: Cooldowns, now: Instant)
    ensures CleanupCooldowns(CleanupCooldowns(c, now), now) == CleanupCooldowns(c, now)
  {
  }

  /** An entry exactly 120 seconds old survives; one a microsecond older is removed. */
  lemma CleanupBoundary(id: CustomerId, t: Instant)
    ensures id in CleanupCooldowns(map[id := t], t + DetectionCooldown * MicrosPerSecond)
    ensures id !in CleanupCooldowns(map[id := t], t + DetectionCooldown * MicrosPerSecond + 1)
  {
  }

  // ---------------------------------------------------------------------------
  // Processing a detection

  predicate IsImageFile(name: string) {
    EndsWith(name, ".jpg") || EndsWith(name, ".jpeg") || EndsWith(name, ".png")
  }

  predicate ImageOf(name: string, id: CustomerId) {
    StartsWith(name, id) && IsImageFile(name)
  }

  /** The first entry of the listing that starts with the id and has an image extension. */
  function FindImage(listing: seq<string>, id: CustomerId): (r: Option<nat>)
    ensures r.None? <==> forall i :: 0 <= i < |listing| ==> !ImageOf(listing[i], id)
    ensures r.Some? ==>
      && r.value < |listing| && ImageOf(listing[r.value], id)
      && (forall i :: 0 <= i < r.value ==> !ImageOf(listing[i], id))
  {
    if |listing| == 0 then None
    else if ImageOf(listing[0], id) then Some(0)
    else
      match FindImage(listing[1..], id)
      case None => None
      case Some(i) => Some(i + 1)
  }

  /** `image_url` of a detection: "/static/images/" and the chosen file name, or None. */
  function ImageUrl(listing: seq<string>, id: CustomerId): Option<string> {
    match FindImage(listing, id)
    case None => None
    case Some(i) => Some(StaticImagesPrefix + listing[i])
  }

  /** The file the camera writes for a customer is picked whenever no earlier entry of the
      listing is an image of that customer, so the dashboard shows the captured face. */
  lemma CapturedImageChosen(id: CustomerId, t: Recognition.DateTime, listing: seq<string>, i: nat)
    requires i < |listing| && listing[i] == Recognition.ImageFileName(id, t)
    requires forall j :: 0 <= j < i ==> !ImageOf(listing[j], id)
    ensures ImageUrl(listing, id) == Some(StaticImagesPrefix + Recognition.ImageFileName(id, t))
  {
    assert ImageOf(listing[i], id);
    var f := FindImage(listing, id);
    assert f.Some? && f.value == i;
  }

  /** The document the server inserts for an unseen customer. */
  function NewCustomerDoc(id: CustomerId, now: Instant): Customers.CustomerDoc {
    Customers.CustomerDoc(id, [], now, now, Some(1), [])
  }

  datatype Processed = Processed(state: ServerState, detection: LatestCache.Detection)

  /** The body of `process_customer_detection`: store update, image lookup, prediction, cache publish. */
  function ProcessDetection(s: ServerState, id: CustomerId, now: Instant, listing: seq<string>,
                            r: Billing.Draw, line: (seq<Billing.Pair>, real) -> real): (p: Processed)
    requires ValidState(s)
    ensures ValidState(p.state)
    ensures p.state.cooldowns == s.cooldowns
    ensures p.detection.customerId == id && p.detection.timestamp == now
    ensures p.detection.imageUrl == ImageUrl(listing, id)
    ensures p.state.latest.entries == s.latest.entries[id := p.detection]
    ensures p.state.latest == LatestCache.Publish(s.latest, p.detection)
    ensures Customers.FindOne(s.customers, id).None? ==>
      p.state.customers == s.customers + [NewCustomerDoc(id, now)] && p.detection.visitCount == 1
    ensures Customers.FindOne(s.customers, id).Some? ==>
      && p.detection.visitCount == Customers.FindOne(s.customers, id).value.visitCount.GetOr(0) + 1
      && p.state.customers == Customers.RecordVisit(s.customers, id, now, None)
    ensures s.engine.None? ==> p.detection.predictedBill == 0.0 && p.state.engine.None?
    ensures s.engine.Some? ==>
      var f := Billing.Predict(s.engine.value, id, r, line);
      p.detection.predictedBill == f.amount && p.state.engine == Some(f.engine)
  {
    var found := Customers.FindOne(s.customers, id);
    var customers := if found.None? then s.customers + [NewCustomerDoc(id, now)]
                     else Customers.RecordVisit(s.customers, id, now, None);
    var visits := if found.None? then 1 else found.value.visitCount.GetOr(0) + 1;
    var bill := if s.engine.None? then 0.0 else Billing.Predict(s.engine.value, id, r, line).amount;
    var engine := if s.engine.None? then None else Some(Billing.Predict(s.engine.value, id, r, line).engine);
    var d := LatestCache.Detection(id, now, ImageUrl(listing, id), bill, visits);
    Processed(s.(customers := customers, latest := LatestCache.Publish(s.latest, d), engine := engine), d)
  }

  /** The count the detection reports is the count the store now holds for the customer. */
  lemma ReportedVisitsMatchStore(s: ServerState, id: CustomerId, now: Instant, listing: seq<string>,
                                 r: Billing.Draw, line: (seq<Billing.Pair>, real) -> real)
    requires ValidState(s)
    ensures var p := ProcessDetection(s, id, now, listing, r, line);
      Customers.FindOne(p.state.customers, id).Some?
      && Customers.FindOne(p.state.customers, id).value.visitCount == Some(p.detection.visitCount)
      && Customers.FindOne(p.state.customers, id).value.lastSeenDate == now
  {
    var p := ProcessDetection(s, id, now, listing, r, line);
    var c := s.customers;
    match Customers.FindIndex(c, id)
    case None =>
      var c' := c + [NewCustomerDoc(id, now)];
      assert forall i :: 0 <= i < |c| ==> c'[i] == c[i];
      Customers.FindIndexAt(c', id, |c|);
    case Some(i) =>
      var c' := Customers.RecordVisit(c, id, now, None);
      assert forall j :: 0 <= j < i ==> c'[j] == c[j];
      Customers.FindIndexAt(c', id, i);
  }

  // ---------------------------------------------------------------------------
  // Endpoints

  datatype Step = Step(reply: Reply, state: ServerState)

  /** `/api/customer_detected` (POST) followed by its background processing. */
  function CustomerDetected(s: ServerState, body: Option<Payload>, now: Instant, processNow: Instant,
                            listing: seq<string>, r: Billing.Draw,
                            line: (seq<Billing.Pair>, real) -> real): (st: Step)
    requires ValidState(s)
    ensures ValidState(st.state)
    ensures body.None? ==> st.reply.status == 500 && st.state == s
    ensures body.Some? && TruthyId(body.value.customerId).None? ==>
      st.reply == Reply(400, "No customer ID provided", false) && st.state == s
    ensures body.Some? && TruthyId(body.value.customerId).Some? ==>
      var id := TruthyId(body.value.customerId).value;
      && st.reply == Reply(200, "Processing detection for customer " + id, false)
      && st.state.cooldowns == s.cooldowns[id := now]
      && st.state == ProcessDetection(s.(cooldowns := s.cooldowns[id := now]), id, processNow, listing, r, line).state
  {
    match body
    case None => Step(Reply(500, "Internal Server Error", false), s)
    case Some(payload) =>
      match TruthyId(payload.customerId)
      case None => Step(Reply(400, "No customer ID provided", false), s)
      case Some(id) =>
        var marked := s.(cooldowns := s.cooldowns[id := now]);
        Step(Reply(200, "Processing detection for customer " + id, false),
             ProcessDetection(marked, id, processNow, listing, r, line).state)
  }

  /** The server does not debounce: a second detection of the same customer, however soon,
      is processed again and replaces the cached event with a newer one. */
  lemma NoSuppressionOnServer(s: ServerState, id: CustomerId, now1: Instant, p1: Instant,
                              now2: Instant, p2: Instant, listing: seq<string>, r: Billing.Draw,
                              line: (seq<Billing.Pair>, real) -> real)
    requires ValidState(s) && id != ""
    ensures var body := Some(Payload(Id(id), BillMissing, false));
      var first := CustomerDetected(s, body, now1, p1, listing, r, line);
      var second := CustomerDetected(first.state, body, now2, p2, listing, r, line);
      && second.reply.status == 200
      && second.state.cooldowns[id] == now2
      && id in second.state.latest.entries
      && second.state.latest.entries[id].timestamp == p2
  {
    var body := Some(Payload(Id(id), BillMissing, false));
    var first := CustomerDetected(s, body, now1, p1, listing, r, line);
    var marked := first.state.(cooldowns := first.state.cooldowns[id := now2]);
    var p := ProcessDetection(marked, id, p2, listing, r, line);
    assert p.state.latest.entries[id] == p.detection;
  }

  /** `float(data.get('actual_bill', 0))`: None when it raises ValueError; a null raises TypeError. */
  datatype Amount = Parsed(value: real) | Invalid | Crash

  function ParseBill(f: BillField, parseFloat: string -> Option<real>): Amount {
    match f
    case BillMissing => Parsed(0.0)
    case BillNull => Crash
    case BillBool(b) => Parsed(if b then 1.0 else 0.0)
    case BillNumber(n) => Parsed(n)
    case BillText(t) => if parseFloat(t).Some? then Parsed(parseFloat(t).value) else Invalid
  }

  /** `not data`: no JSON at all, or an empty object. */
  predicate NoData(body: Option<Payload>) {
    body.None? || (body.value.customerId.IdMissing? && body.value.actualBill.BillMissing? && !body.value.otherKeys)
  }

  /** `/api/update_bill`: validation in source order, then the billing update and the cache removal.
      `parseFloat` is `float()` on a string and `money` the `:.2f` formatting of the amount. */
  function UpdateBill(s: ServerState, body: Option<Payload>, parseFloat: string -> Option<real>,
                      money: real -> string, today: string, items: int): (st: Step)
    requires ValidState(s)
    requires Billing.MinItems <= items <= Billing.MaxItems
    ensures ValidState(st.state)
    ensures st.reply.status != 200 ==> st.state == s && !st.reply.removed
    ensures NoData(body) ==> st.reply == Reply(400, "No data provided", false)
    ensures !NoData(body) && ParseBill(body.value.actualBill, parseFloat).Invalid? ==>
      st.reply == Reply(400, "Invalid bill amount", false)
    ensures !NoData(body) && ParseBill(body.value.actualBill, parseFloat).Crash? ==> st.reply.status == 500
    ensures (!NoData(body) && ParseBill(body.value.actualBill, parseFloat).Parsed?
             && TruthyId(body.value.customerId).None?) ==>
      st.reply == Reply(400, "Customer ID is required", false)
    ensures (!NoData(body) && ParseBill(body.value.actualBill, parseFloat).Parsed?
             && TruthyId(body.value.customerId).Some? && s.engine.None?) ==>
      st.reply == Reply(500, "Failed to update bill amount", false)
    ensures st.reply.status == 200 <==>
      !NoData(body) && ParseBill(body.value.actualBill, parseFloat).Parsed?
      && TruthyId(body.value.customerId).Some? && s.engine.Some?
    ensures st.reply.status == 200 ==>
      var id := TruthyId(body.value.customerId).value;
      var amount := ParseBill(body.value.actualBill, parseFloat).value;
      && st.reply == Reply(200, "Bill for " + id + " updated to $" + money(amount), true)
      && st.state.latest.entries == s.latest.entries - {id}
      && st.state.latest == Dicts.Remove(s.latest, id)
      && st.state.cooldowns == s.cooldowns && st.state.customers == s.customers
      && st.state.engine == Some(Billing.UpdateWithNewPurchase(s.engine.value, id, amount, today, items).engine)
  {
    if NoData(body) then Step(Reply(400, "No data provided", false), s)
    else
      var payload := body.value;
      match ParseBill(payload.actualBill, parseFloat)
      case Invalid => Step(Reply(400, "Invalid bill amount", false), s)
      case Crash => Step(Reply(500, "Internal Server Error", false), s)
      case Parsed(amount) =>
        match TruthyId(payload.customerId)
        case None => Step(Reply(400, "Customer ID is required", false), s)
        case Some(id) =>
          match s.engine
          case None => Step(Reply(500, "Failed to update bill amount", false), s)
          case Some(e) =>
            var u := Billing.UpdateWithNewPurchase(e, id, amount, today, items);
            if u.success then
              Step(Reply(200, "Bill for " + id + " updated to $" + money(amount), true),
                   s.(engine := Some(u.engine), latest := Dicts.Remove(s.latest, id)))
            else Step(Reply(500, "Failed to update bill amount", false), s)
  }

  /** `/api/test_detection`: publishes a fixed event, without touching cooldowns or the store. */
  function TestDetection(s: ServerState, body: Option<Payload>, now: Instant): (st: Step)
    requires ValidState(s)
    requires body.Some? ==> !body.value.customerId.IdNull?
    ensures ValidState(st.state)
    ensures body.None? ==> st.reply.status == 500 && st.state == s
    ensures body.Some? ==>
      var id := if body.value.customerId.Id? then body.value.customerId.id else TestCustomerId;
      && st.reply == Reply(200, "Test detection added for " + id, false)
      && st.state.cooldowns == s.cooldowns && st.state.customers == s.customers && st.state.engine == s.engine
      && st.state.latest.entries ==
         s.latest.entries[id := LatestCache.Detection(id, now, Some(TestImageUrl), TestPredictedBill, 1)]
      && st.state.latest ==
         LatestCache.Publish(s.latest, LatestCache.Detection(id, now, Some(TestImageUrl), TestPredictedBill, 1))
  {
    match body
    case None => Step(Reply(500, "Internal Server Error", false), s)
    case Some(payload) =>
      var id := match payload.customerId
        case Id(x) => x
        case _ => TestCustomerId;
      var d := LatestCache.Detection(id, now, Some(TestImageUrl), TestPredictedBill, 1);
      Step(Reply(200, "Test detection added for " + id, false), s.(latest := LatestCache.Publish(s.latest, d)))
  }

  /** When no cached event is newer than the test one, the dashboard's latest customer after
      `/api/test_detection` carries the test event's instant. */
  lemma TestDetectionShownLatest(s: ServerState, body: Option<Payload>, now: Instant)
    requires ValidState(s) && body.Some? && !body.value.customerId.IdNull?
    requires forall k :: k in s.latest.entries ==> s.latest.entries[k].timestamp <= now
    ensures var c := TestDetection(s, body, now).state.latest;
      LatestCache.GetLatest(c).LatestCustomer? && LatestCache.GetLatest(c).detection.timestamp == now
  {
    var id := if body.value.customerId.Id? then body.value.customerId.id else TestCustomerId;
    var c := TestDetection(s, body, now).state.latest;
    var g := LatestCache.GetLatest(c);
    assert id in c.entries && c.entries[id].timestamp == now;
    var k :| k in c.entries && c.entries[k] == g.detection;
    assert k == id || k in s.latest.entries;
  }
}

=== FILE: strings.dfy ===
/** String helpers shared by the components: Python's `startswith`/`endswith`,
    decimal rendering of integers (`str(n)`, `f"{n:02}"`) and parsing of ASCII
    integer literals (`int(s)`). */
module Strings {

  import opened Wrappers

  predicate StartsWith(s: string, prefix: string) {
    |prefix| <= |s| && s[..|prefix|] == prefix
  }

  predicate EndsWith(s: string, suffix: string) {
    |suffix| <= |s| && s[|s| - |suffix|..] == suffix
  }

  predicate IsDigit(c: char) {
    '0' <= c <= '9'
  }

  predicate AllDigits(s: string) {
    forall i :: 0 <= i < |s| ==> IsDigit(s[i])
  }

  function DigitChar(d: nat): (c: char)
    requires d < 10
    ensures IsDigit(c)
    ensures c as int - '0' as int == d
  {
    ['0', '1', '2', '3', '4', '5', '6', '7', '8', '9'][d]
  }

  function DigitValue(c: char): (d: nat)
    requires IsDigit(c)
    ensures d < 10
  {
    c as int - '0' as int
  }

  /** The value of a string of ASCII decimal digits, most significant first. */
  function DigitsValue(s: string): nat
    requires AllDigits(s)
  {
    if |s| == 0 then 0 else DigitsValue(s[..|s| - 1]) * 10 + DigitValue(s[|s| - 1])
  }

  /** Python's `str(n)` for a non-negative integer: no leading zeros. */
  function NatToString(n: nat): (s: string)
    ensures |s| > 0 && AllDigits(s)
    ensures |s| > 1 ==> s[0] != '0'
    decreases n
  {
    if n < 10 then [DigitChar(n)] else NatToString(n / 10) + [DigitChar(n % 10)]
  }

  /** Python's `str(i)` for any integer. */
  function IntToString(i: int): (s: string)
    ensures |s| > 0
    ensures i >= 0 <==> IsDigit(s[0])
  {
    if i < 0 then "-" + NatToString(-i) else NatToString(i)
  }

  /** Left-pads with '0' up to `width` characters (the `0w` format spec); longer strings are kept. */
  function ZeroPad(s: string, width: nat): (r: string)
    ensures |r| == if |s| >= width then |s| else width
    ensures EndsWith(r, s)
    ensures forall i :: 0 <= i < |r| - |s| ==> r[i] == '0'
  {
    if |s| >= width then s
    else
      var zeros := seq(width - |s|, _ => '0');
      assert (zeros + s)[|zeros + s| - |s|..] == s;
      zeros + s
  }

  /** Python's `int(s)` on an ASCII literal: an optional sign then one or more decimal digits. */
  function ParseInt(s: string): (r: Option<int>)
    ensures r.Some? <==>
      (|s| > 0 && (s[0] == '+' || s[0] == '-' || IsDigit(s[0]))
       && (if IsDigit(s[0]) then AllDigits(s) else |s| > 1 && AllDigits(s[1..])))
  {
    if |s| == 0 then None
    else if (s[0] == '+' || s[0] == '-') && |s| > 1 && AllDigits(s[1..]) then
      var magnitude: int := DigitsValue(s[1..]);
      Some(if s[0] == '-' then -magnitude else magnitude)
    else if AllDigits(s) then Some(DigitsValue(s))
    else None
  }

  lemma {:induction false} DigitsValueOfNatToString(n: nat)
    ensures DigitsValue(NatToString(n)) == n
    decreases n
  {
    var s := NatToString(n);
    if n < 10 {
      assert s == [DigitChar(n)];
      assert s[..0] == [];
    } else {
      DigitsValueOfNatToString(n / 10);
      assert s[..|s| - 1] == NatToString(n / 10);
    }
  }

  /** `int(str(n)) == n`: rendering then parsing a natural number is the identity. */
  lemma ParseNatToString(n: nat)
    ensures ParseInt(NatToString(n)) == Some(n)
  {
    DigitsValueOfNatToString(n);
  }

  /** A digit string is at least 10^(|s|-1) when it has no leading zero. */
  lemma {:induction false} DigitsValueLowerBound(s: string)
    requires AllDigits(s) && |s| > 0 && s[0] != '0'
    ensures DigitsValue(s) >= Pow10(|s| - 1)
    decreases |s|
  {
    if |s| == 1 {
      assert s[..0] == [];
    } else {
      var init := s[..|s| - 1];
      assert init[0] == s[0];
      DigitsValueLowerBound(init);
    }
  }

  /** A digit string is below 10^|s|. */
  lemma {:induction false} DigitsValueUpperBound(s: string)
    requires AllDigits(s)
    ensures DigitsValue(s) < Pow10(|s|)
    decreases |s|
  {
    if |s| > 0 {
      DigitsValueUpperBound(s[..|s| - 1]);
    }
  }

  function Pow10(k: nat): (p: nat)
    ensures p >= 1
  {
    if k == 0 then 1 else 10 * Pow10(k - 1)
  }

  /** Digits of a prefix: the value of `p + t` is `value(p) * 10^|t| + value(t)`. */
  lemma {:induction false} DigitsValueAppend(p: string, t: string)
    requires AllDigits(p) && AllDigits(t)
    ensures AllDigits(p + t)
    ensures DigitsValue(p + t) == DigitsValue(p) * Pow10(|t|) + DigitsValue(t)
    decreases |t|
  {
    if |t| == 0 {
      assert p + t == p;
    } else {
      var t' := t[..|t| - 1];
      DigitsValueAppend(p, t');
      assert (p + t)[..|p + t| - 1] == p + t';
      assert (p + t)[|p + t| - 1] == t[|t| - 1];
      ShiftDigit(DigitsValue(p), Pow10(|t'|), DigitsValue(t'), DigitValue(t[|t| - 1]));
    }
  }

  lemma ShiftDigit(v: int, w: int, x: int, d: int)
    ensures (v * w + x) * 10 + d == v * (10 * w) + (x * 10 + d)
  {
  }

  lemma {:induction false} Pow10Monotone(a: nat, b: nat)
    requires a <= b
    ensures Pow10(a) <= Pow10(b)
    decreases b
  {
    if a < b {
      Pow10Monotone(a, b - 1);
    }
  }

  lemma Pow10Strict(a: nat, b: nat)
    requires Pow10(a) < Pow10(b)
    ensures a < b
  {
    if a >= b {
      Pow10Monotone(b, a);
    }
  }

  /** `f"{n:0{w}}"` of a number below 10^w: exactly `w` digits. */
  lemma PadNatDigits(n: nat, w: nat)
    requires w >= 1 && n < Pow10(w)
    ensures |ZeroPad(NatToString(n), w)| == w
    ensures AllDigits(ZeroPad(NatToString(n), w))
  {
    var s := NatToString(n);
    if |s| > 1 {
      DigitsValueOfNatToString(n);
      DigitsValueLowerBound(s);
      Pow10Strict(|s| - 1, w);
    }
    var r := ZeroPad(s, w);
    assert forall i :: |r| - |s| <= i < |r| ==> r[i] == s[i - (|r| - |s|)];
  }

  lemma AllDigitsConcat(a: string, b: string)
    requires AllDigits(a) && AllDigits(b)
    ensures AllDigits(a + b)
  {
    assert forall i :: |a| <= i < |a + b| ==> (a + b)[i] == b[i - |a|];
  }
}

=== FILE: wrappers.dfy ===
/** Optional values, used wherever the source returns None or leaves a field absent. */
module Wrappers {

  datatype Option<+T> = None | Some(value: T) {

    /** The wrapped value, or `default` when there is none (Python's `d.get(k, default)`). */
    function GetOr(default: T): T {
      match this
      case Some(v) => v
      case None => default
    }
  }
}
